=== FILE: README.md ===
# Hostproxy reconciler, modelled in Dafny

This project models one reconciliation pass of the Hostproxy operator's
controller, `HostproxyReconciler.Reconcile`, together with the descriptor
builders it calls: `deploymentForHostproxy`, `serviceForHostproxy`,
`labelsForHostproxy` and `imageForHostproxy`. It also models the `Hostproxy`
custom resource type. The properties are proved over single passes and over
chains of passes. A chain (`ReconcilerProperties.StoreAfter`) runs one pass
per failure oracle in a sequence, so each pass may fail at its own sites.

A pass is a pure function `Reconcile(store, config, fail)`:

- `store` is the object store for one request key. It holds at most one
  Hostproxy, one Deployment and one Service.
- `config` carries the value of the `HOSTPROXY_IMAGE` environment variable,
  `None` when it is unset.
- `fail` is a failure oracle: the set of call sites whose store call fails in
  this pass. Every fallible call of the pass has its own site (`Faults.Site`).
  Setting a controller reference is one of them.

A pass returns:

- the store afterwards;
- an outcome: done, immediate requeue, requeue after one minute, an error, or
  a panic;
- the store calls made, in order;
- the events recorded.

The pass follows the controller's early-return pipeline:

1. Fetch the resource.
2. Initialise the status.
3. Attach the finalizer.
4. Take either the deletion branch, or Deployment, Service and replica
   convergence followed by the steady state.

Each phase is its own function in `Reconciler`. `Passes` proves what each
phase does on its own. `ReconcilerProperties` assembles pass-level and
multi-pass properties from those phase lemmas.

Module layout:

| file | module | content |
|---|---|---|
| wrappers.dfy | Wrappers | `Option`, `Result` |
| text.dfy | Text | `strings.Split` with a one-character separator and its inverse `Join`; `%d` rendering and its parser |
| conditions.dfy | Conditions | status conditions and the merge-by-type of `meta.SetStatusCondition` |
| finalizers.dfy | Finalizers | `controllerutil` finalizer helpers |
| api.dfy | HostproxyApi | the custom resource and its port bounds |
| faults.dfy | Faults | call sites, failure oracle, errors |
| descriptors.dfy | Descriptors | labels, image, Deployment and Service descriptors |
| cluster.dfy | Cluster | the store and its calls |
| reconciler.dfy | Reconciler | one reconciliation pass |
| passes.dfy | Passes | per-phase equations |
| properties.dfy | ReconcilerProperties | pass-level and multi-pass properties |

Store calls behave as follows:

- `Status().Update` writes only the conditions.
- `Update` writes the spec and the finalizers.
- Once a deletion-marked object has no finalizer left, `Update` removes it
  from the store, as the API server does.
- `Update` refuses to add a finalizer to a deletion-marked object, as the API
  server does. A resource marked for deletion before this controller attached
  its finalizer therefore never reaches the deletion branch.
- The store can hold a deletion-marked resource with no finalizers, which the
  API server would already have removed. Every write that adds a finalizer to
  it is refused, so a pass never gets past attachment on such a resource.
- A call from a failing site returns an error and changes nothing.

Source paths below are relative to the repository root.

## Model

| member | source | states |
|---|---|---|
| Conditions.SetStatusCondition | api/v1/hostproxy_types.go:55 | The merge by key `type`: afterwards the new condition is the entry of its type. Entries of other types keep their positions and values. The list grows only for a new type. Unique types and documented types are preserved. |
| Conditions.SetStatusConditionIdempotent | internal/controller/hostproxy_controller.go:309-316 | Setting the same condition twice gives the same list as setting it once. |
| Finalizers.AddFinalizer | internal/controller/hostproxy_controller.go:124-129 | Afterwards the finalizer is present. It reports "added" exactly when it was missing. A list that already holds the token is returned unchanged. Otherwise the original list is kept in order as a prefix and the token is appended after it, once. |
| Finalizers.RemoveFinalizer | internal/controller/hostproxy_controller.go:181-184 | Afterwards the finalizer is absent. It reports "removed" exactly when it was present. Other finalizers are kept, and a list without the token comes back unchanged. |
| Finalizers.RemoveAfterAdd | internal/controller/hostproxy_controller.go:124-189 | Removing the finalizer that attachment added restores the original list. |
| Text.Split | internal/controller/hostproxy_controller.go:438 | `strings.Split` on one character. It returns at least one piece and no piece holds the separator. There are two or more pieces exactly when the string holds the separator. |
| Text.JoinSplit | internal/controller/hostproxy_controller.go:438 | Joining the pieces of a split gives back the string. |
| Text.SplitJoin | internal/controller/hostproxy_controller.go:438 | Splitting a join of separator-free pieces gives back the pieces. |
| Text.IntToString | internal/controller/hostproxy_controller.go:393 | The `%d` rendering has at least one character and never a `:`. It is all digits exactly when the integer is not negative. |
| Text.NatToStringWidth | internal/controller/hostproxy_controller.go:393 | A natural number renders in at most k decimal digits exactly when it is below 10^k. |
| Text.IntStringRoundTrip | internal/controller/hostproxy_controller.go:393 | The `%d` rendering of any integer reads back as that integer. |
| Descriptors.ImageFor | internal/controller/hostproxy_controller.go:450-457 | The configured image, or the "unable to find HOSTPROXY_IMAGE" error exactly when the variable is unset. |
| Descriptors.ImageVersion | internal/controller/hostproxy_controller.go:435-439 | The version is the second `:`-separated piece of the image, or empty when the image is unset. The indexing panics exactly when the image holds no `:`. |
| Descriptors.LabelsFor | internal/controller/hostproxy_controller.go:434-446 | Exactly the five recommended label keys. `instance` is the resource name and `version` is the image's second piece. It fails exactly when the version indexing panics. |
| Descriptors.VersionOfTestImage | internal/controller/hostproxy_controller_test.go:63-65 | With the test's image `example.com/image:test`, the version label is `test`. |
| Descriptors.VersionOfImageWithRegistryPort | internal/controller/hostproxy_controller.go:438 | For `host:5000/img:tag` the version label is `5000/img`, not the tag. |
| Descriptors.PortsRoundTrip | internal/controller/hostproxy_controller.go:390-395 | `PORTS` is `<ClusterPort>:<HostPort>`, cluster port first, and reads back as exactly those two ports. |
| Descriptors.AdmittedPortsAreDigits | internal/controller/hostproxy_controller.go:393 | For admitted ports, `PORTS` splits into two digit-only pieces. |
| Descriptors.AdmittedPortRendering | api/v1/hostproxy_types.go:31-41 | Every port the validation markers admit renders in `PORTS` as one to five decimal digits. Because the maximum is inclusive, one admitted value lies beyond the largest TCP port (65535): 65536, and no other. |
| Descriptors.PortsOfTestResource | internal/controller/hostproxy_controller_test.go:77-80 | The test's spec (HostPort 10541, ClusterPort 80) gives `PORTS` = `80:10541`. |
| Descriptors.DeploymentFor | internal/controller/hostproxy_controller.go:347-408 | The build panics exactly when the image has no `:`. An unset image gives the image error. A refused controller reference gives that error. Otherwise the Deployment has the resource's name and namespace, one replica, selector equal to the pod labels, the image, `PORTS`, and the resource as controlling owner. |
| Descriptors.ServiceFor | internal/controller/hostproxy_controller.go:410-430 | The build panics exactly when the image has no `:`. Otherwise it fails only on a refused controller reference. A built Service is headless (`ClusterIP` "None"), has the resource's name and namespace, selects the labels, and is owned by the resource. |
| Descriptors.ServiceSelectsDeploymentPods | internal/controller/hostproxy_controller.go:410-422 | The Service's selector is the Deployment's pod label set and names the instance. |
| Cluster.GetHostproxy | internal/controller/hostproxy_controller.go:89 | A read of the resource succeeds exactly when its site does not fail and the resource exists, and it returns the stored object. A missing resource gives not-found; a failing site gives its own error. |
| Cluster.UpdateStatus | internal/controller/hostproxy_controller.go:105 | The status sub-update succeeds exactly when its site does not fail and the resource exists. Only the stored conditions change; spec, finalizers and both dependents are kept. A failing site returns its own error. |
| Cluster.UpdateHostproxy | internal/controller/hostproxy_controller.go:131 | The main update succeeds exactly when its site does not fail, the resource exists, and the write adds no finalizer to a deletion-marked resource; that last case fails with the store's refusal. It writes spec and finalizers and keeps the conditions. A deletion-marked resource written with no finalizers is removed. A failing site returns its own error. |
| Cluster.GetDeployment | internal/controller/hostproxy_controller.go:196 | The Deployment lookup succeeds exactly when its site does not fail and a Deployment exists, and returns it. Otherwise the error is not-found or the site's own. |
| Cluster.CreateDeployment | internal/controller/hostproxy_controller.go:217 | Creation succeeds exactly when its site does not fail and no Deployment exists. It stores exactly the given object and changes nothing else. A failing site returns its own error. |
| Cluster.UpdateDeployment | internal/controller/hostproxy_controller.go:276 | The Deployment write succeeds exactly when its site does not fail and a Deployment exists. It stores exactly the given object and changes nothing else. A failing site returns its own error. |
| Cluster.GetService | internal/controller/hostproxy_controller.go:233 | The Service lookup succeeds exactly when its site does not fail and a Service exists, and returns it. Otherwise the error is not-found or the site's own. |
| Cluster.CreateService | internal/controller/hostproxy_controller.go:254 | Creation succeeds exactly when its site does not fail and no Service exists. It stores exactly the given object and changes nothing else. A failing site returns its own error. |
| Reconciler.Reconcile | internal/controller/hostproxy_controller.go:82-100 | Every pass starts with the fetch. A missing resource ends the pass done, after that single call and with the store unchanged. A failed fetch returns its error the same way. |
| Reconciler.InitializeStatus | internal/controller/hostproxy_controller.go:102-119 | A resource that already has conditions passes through untouched. An interrupted initialisation returns the error without touching the dependents. |
| Reconciler.AttachFinalizer | internal/controller/hostproxy_controller.go:121-135 | A resource that holds the finalizer passes through untouched. A stop leaves the store as it was and records nothing. |
| Reconciler.CheckDeletion | internal/controller/hostproxy_controller.go:137-196 | Exactly the resources not marked for deletion go on to look up their Deployment. A deletion-marked one leaves both dependents as they were and never asks for the one-minute requeue. |
| Reconciler.Finalize | internal/controller/hostproxy_controller.go:139-192 | Without the finalizer the branch is done at once. It never changes a dependent, never asks for the one-minute requeue, and makes only its four calls, in order. |
| Reconciler.ConvergeDeployment | internal/controller/hostproxy_controller.go:194-230 | Only conditions of the resource change. The first call is the Deployment lookup. Without a Deployment only Deployment calls are made and the Service is untouched. A Deployment that is created comes from the descriptor and ends the pass with the one-minute requeue. |
| Reconciler.ConvergeService | internal/controller/hostproxy_controller.go:232-267 | Only conditions of the resource change. The first call is the Service lookup. Without a Service no replica write happens. A Service that is created comes from the descriptor and ends the pass with the one-minute requeue. |
| Reconciler.ConvergeScale | internal/controller/hostproxy_controller.go:273-306 | With one replica the only call is the Available write. Otherwise the Deployment is written back with exactly one replica and the pass requeues at once. If that write fails, the resource is re-read and an error is returned. |
| Reconciler.SteadyState | internal/controller/hostproxy_controller.go:308-323 | The pass is done exactly when the status write succeeds. It then holds Available=True with the success message. Dependents are unchanged. |
| Passes.Prepared | internal/controller/hostproxy_controller.go:103-135 | After the prelude the resource holds the finalizer and at least one condition. Name, namespace, spec and deletion mark are kept. |
| Passes.Prelude | internal/controller/hostproxy_controller.go:89-140 | If none of its calls fails, the prelude writes the prepared resource and hands it to the deletion check. A call fails by the oracle, or, for the finalizer write on a deletion-marked resource, by the store's refusal. |
| Passes.InitializeStep | internal/controller/hostproxy_controller.go:103-119 | Initialisation writes Available=Unknown to an empty list, then re-reads the resource. |
| Passes.InitializeInterrupted | internal/controller/hostproxy_controller.go:105-118 | A refused status write or re-read ends the pass with that error. After a refused re-read the initial condition is already stored. |
| Passes.AttachStep | internal/controller/hostproxy_controller.go:124-135 | On a resource not being deleted, attachment appends the finalizer when it is missing and writes the resource. |
| Passes.AttachInterrupted | internal/controller/hostproxy_controller.go:131-134 | A finalizer write that fails ends the pass with that error and changes nothing. It fails when the oracle says so, or when the resource is being deleted and the store refuses the new finalizer. |
| Passes.InitializationRefused | internal/controller/hostproxy_controller.go:105-118 | At pass level, the failing call is the last one made and its error is returned. The dependents are untouched. |
| Passes.AttachmentRefused | internal/controller/hostproxy_controller.go:131-134 | At pass level, the prelude's calls are made, the finalizer write's error (the oracle's, or the store's refusal for a deletion-marked resource) is returned, and the resource keeps its old finalizers. |
| Passes.PreludeInterrupted | internal/controller/hostproxy_controller.go:89-135 | Whatever prelude call fails, the pass ends there with that call's error. Nothing is recorded and the dependents are unchanged. A failing call the oracle did not name is the finalizer write, refused for a deletion-marked resource. |
| Passes.PreparedIsStable | internal/controller/hostproxy_controller.go:103-135 | The prelude is a fixed point after one run. A second prelude makes only the fetch. |
| Passes.LivePass | internal/controller/hostproxy_controller.go:137-196 | On a live resource, a pass whose prelude succeeds continues with Deployment convergence. |
| Passes.DeletingPass | internal/controller/hostproxy_controller.go:137-192 | On a deletion-marked resource, a pass whose prelude succeeds continues with the deletion branch. |
| Passes.MissingDeploymentIsCreated | internal/controller/hostproxy_controller.go:197-225 | A missing Deployment is created from the descriptor and the phase ends with the one-minute requeue. |
| Passes.DeploymentBuildFailurePhase | internal/controller/hostproxy_controller.go:199-213 | A failed Deployment build writes Available=False and returns the build error. |
| Passes.DeploymentFound | internal/controller/hostproxy_controller.go:194-233 | A found Deployment hands the pass to Service convergence. |
| Passes.MissingServiceIsCreated | internal/controller/hostproxy_controller.go:234-262 | A missing Service is created from the descriptor and the phase ends with the one-minute requeue. |
| Passes.ServiceBuildFailurePhase | internal/controller/hostproxy_controller.go:236-250 | A refused Service controller reference writes Available=False and returns that error. |
| Passes.ServiceFound | internal/controller/hostproxy_controller.go:232-274 | A found Service hands the pass to the replica check. |
| Passes.DependentsFound | internal/controller/hostproxy_controller.go:194-274 | With both dependents found, the pass goes on to the replica check after the two lookups. |
| Passes.ResizeFailurePhase | internal/controller/hostproxy_controller.go:274-299 | A refused replica write is followed by the re-read and the Available=False/"Resizing" write, and the write's error is returned. |
| Passes.ServiceRefusedConvergence | internal/controller/hostproxy_controller.go:195-250 | Dependent convergence when the Service controller reference is refused: lookup, lookup, status write, then the error. |
| Passes.ResizeRefusedConvergence | internal/controller/hostproxy_controller.go:195-299 | Dependent convergence when the replica write is refused: five calls, the Resizing condition, then the write's error. |
| Passes.DoneOnlyWhenConverged | internal/controller/hostproxy_controller.go:195-323 | Dependent convergence ends done only when the Deployment with one replica and the Service were both found. Available=True was then written, after exactly three calls. |
| Passes.ServiceDoneOnlyWhenFound | internal/controller/hostproxy_controller.go:232-323 | Service convergence ends done only when the Service was found and the replica count was already one. |
| Passes.ConvergenceKeepsConditionsWellFormed | internal/controller/hostproxy_controller.go:194-323 | Whatever fails, dependent convergence stores only condition lists with unique, documented types. |
| Passes.ServiceKeepsConditionsWellFormed | internal/controller/hostproxy_controller.go:232-323 | The same for Service convergence. |
| Passes.ScaleKeepsConditionsWellFormed | internal/controller/hostproxy_controller.go:273-323 | The same for the replica check and the steady state, including the re-read resource. |
| Passes.FinalizeKeepsConditionsWellFormed | internal/controller/hostproxy_controller.go:139-192 | The same for the deletion branch. |
| Passes.FinalizePhase | internal/controller/hostproxy_controller.go:139-191 | With the finalizer present and no refusal, the branch does the following: Degraded=Unknown, the event, Degraded=True, the finalizer removed. A resource left with no finalizer is deleted by the store. |
| Passes.FinalizeInterrupted | internal/controller/hostproxy_controller.go:145-169 | A refused re-read returns its error after Degraded=Unknown was written and the event recorded. |
| Passes.FinalizeNeverRequeues | internal/controller/hostproxy_controller.go:166-184 | The removal's refusal branch cannot be taken: the re-read resource still holds the finalizer. |
| ReconcilerProperties.FreshPrelude | internal/controller/hostproxy_controller.go:103-135 | On a fresh resource the prelude writes Available=Unknown and the finalizer in four calls. |
| ReconcilerProperties.FirstPassCreatesDeployment | internal/controller/hostproxy_controller.go:82-225 | A first pass on a fresh resource initialises the status, attaches the finalizer and creates the Deployment. The Deployment has the resource's name and namespace, one replica and `PORTS`. The pass requeues after a minute. |
| ReconcilerProperties.SecondPassCreatesService | internal/controller/hostproxy_controller.go:232-262 | A pass that finds the Deployment but not the Service creates the headless Service selecting the instance. Besides the prelude's writes, nothing else changes. |
| ReconcilerProperties.ConvergedPassReportsAvailable | internal/controller/hostproxy_controller.go:308-323 | A pass that finds both dependents and one replica writes Available=True with the success message and is done. Besides the prelude's writes, only the conditions change, and the store is then steady. |
| ReconcilerProperties.SteadyPassChangesNothing | internal/controller/hostproxy_controller.go:71-77 | A pass over the converged state leaves the store exactly as it was and is done. |
| ReconcilerProperties.ReplicasArePinned | internal/controller/hostproxy_controller.go:273-305 | A replica count other than 1 is written back as exactly 1 and the pass requeues at once. |
| ReconcilerProperties.SecondPassFromFirst | internal/controller/hostproxy_controller.go:232-262 | From the store the first pass leaves, the second fault-free pass creates the Service. |
| ReconcilerProperties.ThirdPassFromSecond | internal/controller/hostproxy_controller.go:308-323 | From the store the second pass leaves, the third pass leaves Available=True as the only condition. |
| ReconcilerProperties.ThreePassesConverge | internal/controller/hostproxy_controller.go:82-324 | Three fault-free passes on a fresh resource go: Deployment, then Service, then Available=True. A fourth pass changes nothing. |
| ReconcilerProperties.PassesAreNotIdempotent | internal/controller/hostproxy_controller.go:71-77 | A single pass is not idempotent: on a fresh resource the second pass changes what the first left. |
| ReconcilerProperties.AvailableMessage | internal/controller/hostproxy_controller.go:314 | The success message renders the pinned count as `1`. |
| ReconcilerProperties.TestScenarioConverges | internal/controller/hostproxy_controller_test.go:108-150 | The controller test's scenario. The first pass builds `PORTS` = `80:10541` with version label `test`. After three passes the latest (and only) condition is Available=True/"Reconciling" with the expected message. |
| ReconcilerProperties.DeletionPassRemovesFinalizer | internal/controller/hostproxy_controller.go:139-192 | A deletion pass with no refusal (so the resource already holds the finalizer) proceeds as follows. Degraded goes Unknown, the event is recorded, Degraded goes True and the finalizer is removed. Without other finalizers the resource disappears. |
| ReconcilerProperties.DeletionBeforeAttachmentIsStuck | internal/controller/hostproxy_controller.go:121-134 | A resource marked for deletion before it got this controller's finalizer has the attachment refused by the store. The pass returns that error before the deletion branch, records nothing and keeps the finalizers, and the next pass fails the same way. |
| ReconcilerProperties.DeletionInterruptedLeavesDegradedUnknown | internal/controller/hostproxy_controller.go:145-169 | A refused re-read in the deletion branch returns its error. Degraded=Unknown is stored and the finalizer is still held. |
| ReconcilerProperties.DeletionNeverTouchesDependents | internal/controller/hostproxy_controller.go:139-192 | Whatever fails, a deletion-marked resource never reaches a dependent lookup and never asks for the one-minute requeue. Both dependents stay as they were. |
| ReconcilerProperties.StatusInitialisedFirst | internal/controller/hostproxy_controller.go:102-119 | An empty condition list gets Available=Unknown right after the fetch, and the next call is the re-read. A refused write leaves the store unchanged. |
| ReconcilerProperties.FinalizerKeptPastAttachment | internal/controller/hostproxy_controller.go:121-135 | A live pass that reaches the Deployment lookup leaves the resource with its old finalizers plus this controller's, appended once if it was missing. |
| ReconcilerProperties.RequeueOnlyAfterResize | internal/controller/hostproxy_controller.go:124-128 | Whatever fails, an immediate requeue follows only a successful replica write. The requeue branches after `AddFinalizer` and `RemoveFinalizer` are never taken. |
| ReconcilerProperties.AvailableOnlyWhenConverged | internal/controller/hostproxy_controller.go:308-323 | Whatever fails, a live pass ends done only if both dependents existed with one replica and Available=True was written. |
| ReconcilerProperties.PassKeepsConditionsWellFormed | api/v1/hostproxy_types.go:45-55 | Whatever fails, a pass keeps one condition per type and only the documented types. |
| ReconcilerProperties.ConditionsStayWellFormed | api/v1/hostproxy_types.go:55 | However many passes run, and whatever fails in each of them, the condition list stays well-formed. |
| ReconcilerProperties.DeploymentComesFirst | internal/controller/hostproxy_controller.go:194-232 | Whatever fails, without a Deployment a pass makes no Service or replica call and leaves the Service alone. Creating the Deployment ends the pass with the one-minute requeue. |
| ReconcilerProperties.DeploymentBuildFailureIsReported | internal/controller/hostproxy_controller.go:199-213 | A failed Deployment build (such as an unset image) sets Available=False/"Reconciling" naming the resource and returns the error. Nothing is created. |
| ReconcilerProperties.ServiceRefusedPass | internal/controller/hostproxy_controller.go:236-250 | The whole pass when the Service controller reference is refused. |
| ReconcilerProperties.ServiceBuildFailureIsReported | internal/controller/hostproxy_controller.go:236-250 | A failed Service build sets Available=False naming the resource and returns the error. No Service is created. |
| ReconcilerProperties.ImageWithoutTagCrashes | internal/controller/hostproxy_controller.go:436-438 | An image without `:` makes the Deployment build panic, after the prelude has been written. |
| ReconcilerProperties.DeploymentLookupErrorIsReturned | internal/controller/hostproxy_controller.go:226-230 | A Deployment lookup error other than not-found is returned before anything is created. |
| ReconcilerProperties.ServiceLookupErrorIsReturned | internal/controller/hostproxy_controller.go:263-267 | A Service lookup error other than not-found is returned before anything is created. |
| ReconcilerProperties.ResizeRefusedPass | internal/controller/hostproxy_controller.go:276-299 | The whole pass when the replica write is refused. |
| ReconcilerProperties.FailedResizeIsReported | internal/controller/hostproxy_controller.go:276-299 | A refused replica write leads to a re-read, then Available=False/"Resizing" naming the resource. The write's error is returned and the dependents are unchanged. |
| ReconcilerProperties.UnsetImagePass | internal/controller/hostproxy_controller.go:199-213 | With the image unset, a fault-free pass reports the image error and leaves the Deployment missing. |
| ReconcilerProperties.UnsetImageStep | internal/controller/hostproxy_controller.go:199-213 | With the image unset, one pass never creates the Deployment and never removes the live resource, whichever of its calls fail. |
| ReconcilerProperties.UnsetImageKeepsAwaiting | internal/controller/hostproxy_controller.go:199-213 | With the image unset, the Deployment is still missing however many passes run, whatever fails in each of them. |
| ReconcilerProperties.UnsetImageFailsEveryPass | internal/controller/hostproxy_controller.go:450-455 | With the image unset, after any chain of passes with any failures, the next fault-free pass fails on the Deployment build and reports it. |

## Left out

- The Kubernetes client, the API server, the watch machinery and
  `SetupWithManager` (internal/controller/hostproxy_controller.go:462-467).
  The store is an immutable value and failures come from the oracle.
- Optimistic-concurrency versions and conflict errors. These are folded into
  "a call may fail" at its site. Requests for one key are serialised, so
  nothing concurrent is modelled.
- Logging and the RBAC markers (internal/controller/hostproxy_controller.go:63-69).
- The event recorder. The warning from `doFinalizerOperationsForHostproxy` is
  recorded as a trace entry in the pass result.
- `ctrl.SetControllerReference` and the runtime scheme are a foreign library.
  They are modelled as a call that may fail (its own oracle site) and
  otherwise records the owning Hostproxy as controller.
- Garbage collection of the dependents once their owner is deleted. The
  store keeps them.
- `lastTransitionTime` and `observedGeneration` of conditions, and the
  deletion timestamp, which is reduced to a flag.
- `time.Minute` is the tag `RequeueAfterMinute`.
- Seccomp profile, capabilities and pull policy are constant data in the
  descriptor. Nothing is proved about them.
- `os.LookupEnv` is replaced by the `Config` parameter.
- The `Progressing` condition type is documented but never written by the
  controller. It is modelled only as a documented type.
- The comment at internal/controller/hostproxy_controller.go:269-272 refers
  to a `Size` spec field that does not exist. The count is pinned at 1, as
  the code does.
- A nil `Spec.Replicas` pointer on a found Deployment, which the code would
  dereference. The model's Deployment always has a count.
- The envtest suite in internal/controller/hostproxy_controller_test.go is
  not modelled. Its resource and image serve only as the inputs of
  `TestScenarioConverges`.
- The port bounds are enforced by the API server on admission, not by the
  controller. They are the predicate `SpecAdmitted`, which no pass requires.
  The bounds follow the code's markers: 0..65536 with the maximum included.
  So 65536 is admitted, although the largest TCP port is 65535.
- Error texts inside condition messages are abstract (`Faults.ErrorText`).
  Only the image error's text follows the source.
- ReconcilerProperties.ThreePassesConverge: proved for the fault-free oracle
  only. A pass with failures can stop anywhere, and the single-pass lemmas
  cover those cases.
- ReconcilerProperties.TestScenarioConverges: proved for the fault-free
  oracle. The test's own assertions are weaker still: they check the latest
  condition only if conditions were present.
- ReconcilerProperties.UnsetImageFailsEveryPass: the earlier passes may fail
  anywhere, but the final pass is fault-free. A failing final pass stops at
  its failing call instead, which the single-pass lemmas cover.
- ReconcilerProperties.PassesAreNotIdempotent: a single pass is idempotent
  only on the converged state (`SteadyPassChangesNothing`). The idempotence
  the controller's doc comment asks for holds of the converged end state,
  not of each pass.

=== FILE: api.dfy ===
/**
 * The Hostproxy custom resource: its desired ports, its deletion marker,
 * its finalizers and its status conditions.
 */
module HostproxyApi {
  import opened Conditions

  /** Go's `int32`. */
  type Int32 = x: int | -0x8000_0000 <= x < 0x8000_0000

  /** Bounds from the validation markers on both port fields: Minimum=0, Maximum=65536, ExclusiveMaximum=false. */
  const PortMinimum: int := 0
  const PortMaximum: int := 65536

  /** The largest port number TCP and UDP can carry. */
  const TransportPortMaximum: int := 65535

  datatype HostproxySpec = HostproxySpec(hostPort: Int32, clusterPort: Int32)

  /** A port value the custom resource definition admits: the maximum is inclusive. */
  predicate PortAdmitted(p: int) {
    PortMinimum <= p <= PortMaximum
  }

  predicate SpecAdmitted(spec: HostproxySpec) {
    PortAdmitted(spec.hostPort) && PortAdmitted(spec.clusterPort)
  }

  /**
   * One Hostproxy object as the store holds it. `deletionRequested` stands
   * for a non-nil deletion timestamp; the timestamp itself is not modelled.
   */
  datatype Hostproxy = Hostproxy(
    name: string,
    namespace: string,
    spec: HostproxySpec,
    deletionRequested: bool,
    finalizers: seq<string>,
    conditions: seq<Condition>)
}

=== FILE: cluster.dfy ===
/**
 * The object store as the reconciler sees it for one request key: at most
 * one Hostproxy, one Deployment and one Service of that name. Every call
 * takes the failure oracle and the site it is made from; a call from a
 * failing site returns an error and changes nothing.
 */
module Cluster {
  import opened Wrappers
  import opened HostproxyApi
  import opened Faults
  import opened Descriptors

  datatype Store = Store(hostproxy: Option<Hostproxy>, deployment: Option<Deployment>, service: Option<Service>)

  /** Both absent, or both present and equal except for their conditions. */
  predicate OnlyConditionsDiffer(a: Option<Hostproxy>, b: Option<Hostproxy>) {
    a.Some? == b.Some? && (a.Some? ==> a.value.(conditions := b.value.conditions) == b.value)
  }

  function GetHostproxy(s: Store, site: Site, fail: Oracle): (r: Result<Hostproxy, Error>)
    ensures r.Success? <==> site !in fail && s.hostproxy.Some?
    ensures r.Success? ==> s.hostproxy == Some(r.value)
    ensures r.Failure? && site !in fail ==> r.error == NotFound("Hostproxy")
    ensures site in fail ==> r == Failure(Rejected(site))
  {
    if site in fail then Failure(Rejected(site))
    else match s.hostproxy
      case None => Failure(NotFound("Hostproxy"))
      case Some(hp) => Success(hp)
  }

  /** The status sub-update: only the conditions of the stored object are written. */
  function UpdateStatus(s: Store, hp: Hostproxy, site: Site, fail: Oracle): (r: Result<Store, Error>)
    ensures r.Success? <==> site !in fail && s.hostproxy.Some?
    ensures r.Success? ==> r.value.deployment == s.deployment && r.value.service == s.service
    ensures r.Success? ==> r.value.hostproxy == Some(s.hostproxy.value.(conditions := hp.conditions))
    ensures site in fail ==> r == Failure(Rejected(site))
  {
    if site in fail then Failure(Rejected(site))
    else match s.hostproxy
      case None => Failure(NotFound("Hostproxy"))
      case Some(stored) => Success(s.(hostproxy := Some(stored.(conditions := hp.conditions))))
  }

  /** Some token of `after` is missing from `before`. */
  predicate AddsFinalizer(before: seq<string>, after: seq<string>)
    decreases |after|
  {
    |after| > 0 && (after[0] !in before || AddsFinalizer(before, after[1..]))
  }

  /** A write adds a finalizer exactly when one of its tokens is not stored yet. */
  lemma {:induction false} AddsFinalizerMeans(before: seq<string>, after: seq<string>)
    ensures AddsFinalizer(before, after) <==> exists f :: f in after && f !in before
    decreases |after|
  {
    if |after| > 0 {
      AddsFinalizerMeans(before, after[1..]);
      assert after == [after[0]] + after[1..];
    }
  }

  /** The store refuses a write of `hp` over `stored`: a new finalizer on an object being deleted. */
  predicate FinalizerWriteForbidden(stored: Hostproxy, hp: Hostproxy) {
    stored.deletionRequested && AddsFinalizer(stored.finalizers, hp.finalizers)
  }

  /**
   * The main-resource update: spec and finalizers are written, the status is
   * kept. An object marked for deletion accepts no new finalizer; once it has
   * no finalizer left, the store removes it.
   */
  function UpdateHostproxy(s: Store, hp: Hostproxy, site: Site, fail: Oracle): (r: Result<Store, Error>)
    ensures r.Success? <==> site !in fail && s.hostproxy.Some? && !FinalizerWriteForbidden(s.hostproxy.value, hp)
    ensures r.Failure? && site !in fail ==>
              r.error == if s.hostproxy.None? then NotFound("Hostproxy") else FinalizerForbidden
    ensures r.Success? ==> r.value.deployment == s.deployment && r.value.service == s.service
    ensures r.Success? ==>
              var stored := s.hostproxy.value;
              if stored.deletionRequested && |hp.finalizers| == 0 then r.value.hostproxy.None?
              else r.value.hostproxy == Some(stored.(spec := hp.spec, finalizers := hp.finalizers))
    ensures site in fail ==> r == Failure(Rejected(site))
  {
    if site in fail then Failure(Rejected(site))
    else match s.hostproxy
      case None => Failure(NotFound("Hostproxy"))
      case Some(stored) =>
        if FinalizerWriteForbidden(stored, hp) then Failure(FinalizerForbidden)
        else if stored.deletionRequested && |hp.finalizers| == 0 then Success(s.(hostproxy := None))
        else Success(s.(hostproxy := Some(stored.(spec := hp.spec, finalizers := hp.finalizers))))
  }

  function GetDeployment(s: Store, site: Site, fail: Oracle): (r: Result<Deployment, Error>)
    ensures r.Success? <==> site !in fail && s.deployment.Some?
    ensures r.Success? ==> s.deployment == Some(r.value)
    ensures r.Failure? && site !in fail ==> r.error == NotFound("Deployment")
    ensures site in fail ==> r == Failure(Rejected(site))
  {
    if site in fail then Failure(Rejected(site))
    else match s.deployment
      case None => Failure(NotFound("Deployment"))
      case Some(d) => Success(d)
  }

  function CreateDeployment(s: Store, d: Deployment, site: Site, fail: Oracle): (r: Result<Store, Error>)
    ensures r.Success? <==> site !in fail && s.deployment.None?
    ensures r.Success? ==> r.value == s.(deployment := Some(d))
    ensures site in fail ==> r == Failure(Rejected(site))
  {
    if site in fail then Failure(Rejected(site))
    else if s.deployment.Some? then Failure(AlreadyExists("Deployment"))
    else Success(s.(deployment := Some(d)))
  }

  function UpdateDeployment(s: Store, d: Deployment, site: Site, fail: Oracle): (r: Result<Store, Error>)
    ensures r.Success? <==> site !in fail && s.deployment.Some?
    ensures r.Success? ==> r.value == s.(deployment := Some(d))
    ensures site in fail ==> r == Failure(Rejected(site))
  {
    if site in fail then Failure(Rejected(site))
    else if s.deployment.None? then Failure(NotFound("Deployment"))
    else Success(s.(deployment := Some(d)))
  }

  function GetService(s: Store, site: Site, fail: Oracle): (r: Result<Service, Error>)
    ensures r.Success? <==> site !in fail && s.service.Some?
    ensures r.Success? ==> s.service == Some(r.value)
    ensures r.Failure? && site !in fail ==> r.error == NotFound("Service")
    ensures site in fail ==> r == Failure(Rejected(site))
  {
    if site in fail then Failure(Rejected(site))
    else match s.service
      case None => Failure(NotFound("Service"))
      case Some(v) => Success(v)
  }

  function CreateService(s: Store, v: Service, site: Site, fail: Oracle): (r: Result<Store, Error>)
    ensures r.Success? <==> site !in fail && s.service.None?
    ensures r.Success? ==> r.value == s.(service := Some(v))
    ensures site in fail ==> r == Failure(Rejected(site))
  {
    if site in fail then Failure(Rejected(site))
    else if s.service.Some? then Failure(AlreadyExists("Service"))
    else Success(s.(service := Some(v)))
  }
}

=== FILE: conditions.dfy ===
/**
 * Status conditions of a Hostproxy and the merge-by-type bookkeeping that
 * `meta.SetStatusCondition` performs on them. Transition timestamps and the
 * observed generation are not modelled.
 */
module Conditions {
  import opened Wrappers

  datatype ConditionStatus = ConditionTrue | ConditionFalse | ConditionUnknown

  datatype Condition = Condition(conditionType: string, status: ConditionStatus, reason: string, message: string)

  /** The condition types the resource documents for its status. */
  const TypeAvailable := "Available"
  const TypeProgressing := "Progressing"
  const TypeDegraded := "Degraded"

  predicate DocumentedType(t: string) {
    t == TypeAvailable || t == TypeProgressing || t == TypeDegraded
  }

  predicate AllDocumented(conds: seq<Condition>) {
    forall i :: 0 <= i < |conds| ==> DocumentedType(conds[i].conditionType)
  }

  /** The list is merged by the key `type`: no two entries share a type. */
  predicate UniqueTypes(conds: seq<Condition>) {
    forall i, j :: 0 <= i < j < |conds| ==> conds[i].conditionType != conds[j].conditionType
  }

  /** A condition list as the resource's schema describes it: documented types, one entry per type. */
  predicate WellFormedConditions(conds: seq<Condition>) {
    UniqueTypes(conds) && AllDocumented(conds)
  }

  /** Position of the first entry of type `t`, if any. */
  function FirstIndexOf(conds: seq<Condition>, t: string): (r: Option<nat>)
    ensures r.Some? ==> r.value < |conds| && conds[r.value].conditionType == t
    ensures r.Some? ==> forall j :: 0 <= j < r.value ==> conds[j].conditionType != t
    ensures r.None? ==> forall j :: 0 <= j < |conds| ==> conds[j].conditionType != t
    decreases |conds|
  {
    if |conds| == 0 then None
    else if conds[0].conditionType == t then Some(0)
    else match FirstIndexOf(conds[1..], t)
      case None => None
      case Some(k) => Some(k + 1)
  }

  /** `meta.FindStatusCondition`: the first entry of type `t`, if any. */
  function FindStatusCondition(conds: seq<Condition>, t: string): (r: Option<Condition>)
    ensures r.Some? ==> r.value in conds && r.value.conditionType == t
    ensures r.None? <==> forall j :: 0 <= j < |conds| ==> conds[j].conditionType != t
  {
    match FirstIndexOf(conds, t)
    case None => None
    case Some(i) => Some(conds[i])
  }

  /** Two lists whose entries have the same types, position by position, agree on every first index. */
  lemma SameTypesSameIndex(a: seq<Condition>, b: seq<Condition>, t: string)
    requires |a| == |b|
    requires forall j :: 0 <= j < |a| ==> a[j].conditionType == b[j].conditionType
    ensures FirstIndexOf(a, t) == FirstIndexOf(b, t)
    decreases |a|
  {
    if |a| > 0 && a[0].conditionType != t {
      SameTypesSameIndex(a[1..], b[1..], t);
    }
  }

  /** Appending an entry only matters for a type the list did not hold. */
  lemma {:induction false} FirstIndexOfAppend(conds: seq<Condition>, c: Condition, t: string)
    ensures FirstIndexOf(conds + [c], t) ==
              if FirstIndexOf(conds, t).Some? then FirstIndexOf(conds, t)
              else if c.conditionType == t then Some(|conds|)
              else None
    decreases |conds|
  {
    if |conds| > 0 {
      assert (conds + [c])[1..] == conds[1..] + [c];
      FirstIndexOfAppend(conds[1..], c, t);
    }
  }

  /**
   * `meta.SetStatusCondition`: the entry of the new condition's type is
   * overwritten where it stands; a condition of a new type is appended.
   */
  function SetStatusCondition(conds: seq<Condition>, c: Condition): (r: seq<Condition>)
    ensures FindStatusCondition(r, c.conditionType) == Some(c)
    ensures forall t :: t != c.conditionType ==> FindStatusCondition(r, t) == FindStatusCondition(conds, t)
    ensures |r| == if FindStatusCondition(conds, c.conditionType).Some? then |conds| else |conds| + 1
    ensures forall j :: 0 <= j < |conds| && conds[j].conditionType != c.conditionType ==> r[j] == conds[j]
    ensures UniqueTypes(conds) ==> UniqueTypes(r)
    ensures AllDocumented(conds) && DocumentedType(c.conditionType) ==> AllDocumented(r)
  {
    match FirstIndexOf(conds, c.conditionType)
    case Some(i) =>
      var r := conds[i := c];
      assert forall t :: FirstIndexOf(r, t) == FirstIndexOf(conds, t) by {
        forall t ensures FirstIndexOf(r, t) == FirstIndexOf(conds, t) {
          SameTypesSameIndex(r, conds, t);
        }
      }
      r
    case None =>
      var r := conds + [c];
      assert forall t :: FirstIndexOf(r, t) ==
                  if FirstIndexOf(conds, t).Some? then FirstIndexOf(conds, t)
                  else if c.conditionType == t then Some(|conds|)
                  else None by {
        forall t {
          FirstIndexOfAppend(conds, c, t);
        }
      }
      r
  }

  /** Setting the same condition twice is the same as setting it once. */
  lemma SetStatusConditionIdempotent(conds: seq<Condition>, c: Condition)
    ensures SetStatusCondition(SetStatusCondition(conds, c), c) == SetStatusCondition(conds, c)
  {
    var once := SetStatusCondition(conds, c);
    SetStatusConditionUnchanged(once, c);
  }

  /** Setting a condition the list already holds (as the first of its type) changes nothing. */
  lemma SetStatusConditionUnchanged(conds: seq<Condition>, c: Condition)
    requires FindStatusCondition(conds, c.conditionType) == Some(c)
    ensures SetStatusCondition(conds, c) == conds
  {
    var i := FirstIndexOf(conds, c.conditionType).value;
    assert conds[i := c] == conds;
  }
}

=== FILE: descriptors.dfy ===
/**
 * The objects the reconciler derives from a Hostproxy: its label set, its
 * Deployment and its headless Service, and the configuration they read.
 */
module Descriptors {
  import opened Wrappers
  import opened Text
  import opened HostproxyApi
  import opened Faults

  /**
   * Process-wide configuration: the value of HOSTPROXY_IMAGE, `None` when
   * the variable is unset.
   */
  datatype Config = Config(image: Option<string>)

  type Labels = map<string, string>

  const NameLabel := "app.kubernetes.io/name"
  const InstanceLabel := "app.kubernetes.io/instance"
  const VersionLabel := "app.kubernetes.io/version"
  const PartOfLabel := "app.kubernetes.io/part-of"
  const CreatedByLabel := "app.kubernetes.io/created-by"

  /** What Go reports when `strings.Split(image, ":")[1]` finds a single piece. */
  const IndexOutOfRange := "runtime error: index out of range [1] with length 1"

  /** `imageForHostproxy`: the configured image, or an error when it is unset. */
  function ImageFor(cfg: Config): (r: Result<string, Error>)
    ensures cfg.image.None? <==> r == Failure(ImageNotConfigured)
    ensures cfg.image.Some? ==> r == Success(cfg.image.value)
  {
    match cfg.image
    case None => Failure(ImageNotConfigured)
    case Some(image) => Success(image)
  }

  /**
   * The version label: the second `:`-separated piece of the image, or the
   * empty string when the image is unset. An image without `:` makes the
   * indexing panic; the panic is returned as a failure.
   */
  function ImageVersion(cfg: Config): (r: Result<string, string>)
    ensures r.Failure? <==> cfg.image.Some? && ':' !in cfg.image.value
    ensures r.Failure? ==> r.error == IndexOutOfRange
    ensures cfg.image.None? ==> r == Success("")
    ensures r.Success? && cfg.image.Some? ==> ':' !in r.value && r.value == Split(cfg.image.value, ':')[1]
  {
    match ImageFor(cfg)
    case Failure(_) => Success("")
    case Success(image) =>
      var pieces := Split(image, ':');
      if |pieces| < 2 then Failure(IndexOutOfRange) else Success(pieces[1])
  }

  /** `labelsForHostproxy`: the five recommended labels for the instance `name`. */
  function LabelsFor(name: string, cfg: Config): (r: Result<Labels, string>)
    ensures r.Failure? <==> ImageVersion(cfg).Failure?
    ensures r.Failure? ==> r.error == IndexOutOfRange
    ensures r.Success? ==> r.value.Keys == {NameLabel, InstanceLabel, VersionLabel, PartOfLabel, CreatedByLabel}
    ensures r.Success? ==> r.value[InstanceLabel] == name && r.value[VersionLabel] == ImageVersion(cfg).value
  {
    match ImageVersion(cfg)
    case Failure(panic) => Failure(panic)
    case Success(tag) =>
      Success(map[NameLabel := "Hostproxy",
                  InstanceLabel := name,
                  VersionLabel := tag,
                  PartOfLabel := "hostproxy",
                  CreatedByLabel := "controller-manager"])
  }

  /** For the image used by the tests the version label is the tag. */
  lemma VersionOfTestImage()
    ensures ImageVersion(Config(Some("example.com/image:test"))) == Success("test")
  {
    assert "example.com/image:test" == Join(["example.com/image", "test"], ':');
    SplitJoin(["example.com/image", "test"], ':');
  }

  /** With a registry port in the reference, the second piece is not the tag. */
  lemma VersionOfImageWithRegistryPort()
    ensures ImageVersion(Config(Some("host:5000/img:tag"))) == Success("5000/img")
  {
    assert "host:5000/img:tag" == Join(["host", "5000/img", "tag"], ':');
    SplitJoin(["host", "5000/img", "tag"], ':');
  }

  datatype EnvVar = EnvVar(name: string, value: string)

  /** What `ctrl.SetControllerReference` records: the owning Hostproxy, as controller. */
  datatype OwnerReference = OwnerReference(kind: string, name: string, controller: bool, blockOwnerDeletion: bool)

  datatype Container = Container(
    name: string,
    image: string,
    pullPolicy: string,
    capabilities: seq<string>,
    env: seq<EnvVar>)

  datatype PodTemplate = PodTemplate(labels: Labels, seccompProfile: string, containers: seq<Container>)

  datatype Deployment = Deployment(
    name: string,
    namespace: string,
    replicas: Int32,
    selector: Labels,
    template: PodTemplate,
    owner: Option<OwnerReference>)

  datatype Service = Service(
    name: string,
    namespace: string,
    clusterIP: string,
    selector: Labels,
    owner: Option<OwnerReference>)

  /** Outcome of building a descriptor: the object, an error, or a panic. */
  datatype Build<T> = Built(value: T) | BuildFailed(error: Error) | BuildPanicked(reason: string)

  const PortsEnvVar := "PORTS"

  /** The `PORTS` value, `fmt.Sprintf("%d:%d", ClusterPort, HostPort)`. */
  function PortsValue(spec: HostproxySpec): string {
    IntToString(spec.clusterPort) + ":" + IntToString(spec.hostPort)
  }

  /** Reads a `PORTS` value back into (cluster port, host port). */
  function ParsePorts(v: string): Option<(int, int)> {
    var pieces := Split(v, ':');
    if |pieces| != 2 then None
    else match (ParseInt(pieces[0]), ParseInt(pieces[1]))
      case (Some(cluster), Some(host)) => Some((cluster, host))
      case _ => None
  }

  /** `PORTS` carries both ports, cluster port first, and reads back exactly. */
  lemma PortsRoundTrip(spec: HostproxySpec)
    ensures ParsePorts(PortsValue(spec)) == Some((spec.clusterPort as int, spec.hostPort as int))
  {
    var a, b := IntToString(spec.clusterPort), IntToString(spec.hostPort);
    assert PortsValue(spec) == Join([a, b], ':');
    SplitJoin([a, b], ':');
    IntStringRoundTrip(spec.clusterPort);
    IntStringRoundTrip(spec.hostPort);
  }

  /** For admitted ports the value is two digit strings around one colon. */
  lemma AdmittedPortsAreDigits(spec: HostproxySpec)
    requires SpecAdmitted(spec)
    ensures Split(PortsValue(spec), ':') == [IntToString(spec.clusterPort), IntToString(spec.hostPort)]
    ensures AllDigits(IntToString(spec.clusterPort)) && AllDigits(IntToString(spec.hostPort))
  {
    var a, b := IntToString(spec.clusterPort), IntToString(spec.hostPort);
    assert PortsValue(spec) == Join([a, b], ':');
    SplitJoin([a, b], ':');
  }

  /**
   * An admitted port renders in `PORTS` as one to five decimal digits. The
   * inclusive maximum admits one value no transport port can take: 65536.
   */
  lemma AdmittedPortRendering(p: int)
    ensures PortAdmitted(p) ==> AllDigits(IntToString(p)) && 1 <= |IntToString(p)| <= 5
    ensures PortAdmitted(p) && p > TransportPortMaximum <==> p == 65536
  {
    if PortAdmitted(p) {
      NatToStringWidth(p, 5);
    }
  }

  /** The resource used by the tests yields "80:10541". */
  lemma PortsOfTestResource()
    ensures PortsValue(HostproxySpec(10541, 80)) == "80:10541"
  {
  }

  function ControllerReference(owner: Hostproxy): OwnerReference {
    OwnerReference("Hostproxy", owner.name, true, true)
  }

  /**
   * `deploymentForHostproxy`: labels first (which may panic), then the image
   * (which may be unset), then the object, then its controller reference
   * (which may fail, as the oracle decides).
   */
  function DeploymentFor(hp: Hostproxy, cfg: Config, fail: Oracle): (r: Build<Deployment>)
    ensures r.BuildPanicked? <==> cfg.image.Some? && ':' !in cfg.image.value
    ensures cfg.image.None? ==> r == BuildFailed(ImageNotConfigured)
    ensures r.BuildFailed? && cfg.image.Some? ==> r.error == Rejected(DeploymentOwnerReference)
    ensures r.Built? <==> cfg.image.Some? && ':' in cfg.image.value && DeploymentOwnerReference !in fail
    ensures r.Built? ==>
              var d := r.value;
              && d.name == hp.name && d.namespace == hp.namespace
              && d.replicas == 1
              && d.selector == d.template.labels == LabelsFor(hp.name, cfg).value
              && |d.template.containers| == 1
              && d.template.containers[0].image == cfg.image.value
              && d.template.containers[0].env == [EnvVar(PortsEnvVar, PortsValue(hp.spec))]
              && d.owner == Some(ControllerReference(hp))
  {
    match LabelsFor(hp.name, cfg)
    case Failure(panic) => BuildPanicked(panic)
    case Success(ls) =>
      match ImageFor(cfg)
      case Failure(e) => BuildFailed(e)
      case Success(image) =>
        var container := Container(
          "hostproxy", image, "IfNotPresent", ["NET_ADMIN", "NET_RAW"],
          [EnvVar(PortsEnvVar, PortsValue(hp.spec))]);
        var dep := Deployment(
          hp.name, hp.namespace, 1, ls,
          PodTemplate(ls, "RuntimeDefault", [container]),
          None);
        if DeploymentOwnerReference in fail then BuildFailed(Rejected(DeploymentOwnerReference))
        else Built(dep.(owner := Some(ControllerReference(hp))))
  }

  /**
   * `serviceForHostproxy`: a headless Service selecting the same labels.
   * Labels may panic; the controller reference may fail.
   */
  function ServiceFor(hp: Hostproxy, cfg: Config, fail: Oracle): (r: Build<Service>)
    ensures r.BuildPanicked? <==> cfg.image.Some? && ':' !in cfg.image.value
    ensures r.BuildFailed? ==> r.error == Rejected(ServiceOwnerReference)
    ensures r.Built? <==> (cfg.image.None? || ':' in cfg.image.value) && ServiceOwnerReference !in fail
    ensures r.Built? ==>
              var s := r.value;
              && s.name == hp.name && s.namespace == hp.namespace
              && s.clusterIP == "None"
              && s.selector == LabelsFor(hp.name, cfg).value
              && s.owner == Some(ControllerReference(hp))
  {
    match LabelsFor(hp.name, cfg)
    case Failure(panic) => BuildPanicked(panic)
    case Success(ls) =>
      if ServiceOwnerReference in fail then BuildFailed(Rejected(ServiceOwnerReference))
      else Built(Service(hp.name, hp.namespace, "None", ls, Some(ControllerReference(hp))))
  }

  /** The Service built for a Hostproxy selects exactly the pods of its Deployment. */
  lemma ServiceSelectsDeploymentPods(hp: Hostproxy, cfg: Config, fail: Oracle)
    requires DeploymentFor(hp, cfg, fail).Built? && ServiceFor(hp, cfg, fail).Built?
    ensures ServiceFor(hp, cfg, fail).value.selector == DeploymentFor(hp, cfg, fail).value.template.labels
    ensures ServiceFor(hp, cfg, fail).value.selector[InstanceLabel] == hp.name
  {
  }
}

=== FILE: faults.dfy ===
/**
 * The fallible calls one reconciliation pass makes, the failure oracle that
 * decides which of them fail, and the errors a pass can return.
 */
module Faults {

  /**
   * Each fallible call of the pass, named after what it does. Every site is
   * reached at most once per pass.
   */
  datatype Site =
    | GetPrimary                     // fetch of the Hostproxy by the request key
    | InitStatusUpdate               // status write of the initial Available=Unknown
    | InitRefetch                    // re-read after that write
    | FinalizerUpdate                // write that attaches the finalizer
    | FinalizingStatusUpdate         // status write of Degraded=Unknown
    | FinalizingRefetch              // re-read after the finalizer operations
    | FinalizedStatusUpdate          // status write of Degraded=True
    | FinalizerRemoveUpdate          // write that removes the finalizer
    | DeploymentLookup
    | DeploymentOwnerReference       // setting the controller reference on the new Deployment
    | DeploymentCreate
    | DeploymentFailureStatusUpdate  // status write of Available=False after a failed Deployment build
    | ServiceLookup
    | ServiceOwnerReference          // setting the controller reference on the new Service
    | ServiceCreate
    | ServiceFailureStatusUpdate     // status write of Available=False after a failed Service build
    | ScaleUpdate                    // write of the Deployment with one replica
    | ResizeRefetch                  // re-read of the Hostproxy after a failed scale write
    | ResizeFailureStatusUpdate      // status write of Available=False/"Resizing"
    | AvailableStatusUpdate          // status write of Available=True

  /** The calls of the prelude: fetch, status initialisation and finalizer attachment. */
  const PreludeSites: set<Site> := {GetPrimary, InitStatusUpdate, InitRefetch, FinalizerUpdate}

  /** The calls of the deletion branch. */
  const DeletionSites: set<Site> :=
    {FinalizingStatusUpdate, FinalizingRefetch, FinalizedStatusUpdate, FinalizerRemoveUpdate}

  /** Every call in `calls` is one of `sites`. */
  predicate Among(calls: seq<Site>, sites: set<Site>) {
    forall i :: 0 <= i < |calls| ==> calls[i] in sites
  }

  /** The sites whose call fails in this pass; every other call behaves as the store dictates. */
  type Oracle = set<Site>

  const NoFaults: Oracle := {}

  datatype Error =
    | NotFound(kind: string)
    | AlreadyExists(kind: string)
    | Rejected(site: Site)          // a transport, conflict or scheme failure injected at `site`
    | ImageNotConfigured
    | FinalizerForbidden            // a new finalizer on an object already marked for deletion

  /** The environment variable that names the operand image. */
  const ImageEnvVar := "HOSTPROXY_IMAGE"

  /** Text of an error as it appears inside a condition message. */
  function ErrorText(e: Error): string {
    match e
    case NotFound(kind) => kind + " not found"
    case AlreadyExists(kind) => kind + " already exists"
    case Rejected(_) => "request rejected"
    case ImageNotConfigured => "Unable to find " + ImageEnvVar + " environment variable with the image"
    case FinalizerForbidden => "no new finalizers can be added if the object is being deleted"
  }
}

=== FILE: finalizers.dfy ===
/**
 * Finalizer-list helpers with the behaviour of controller-runtime's
 * `controllerutil.ContainsFinalizer`, `AddFinalizer` and `RemoveFinalizer`.
 * Each returns the new list together with whether it changed.
 */
module Finalizers {

  /** The token this controller puts on every Hostproxy it observes. */
  const HostproxyFinalizer := "networking.raw1z.fr/finalizer"

  predicate ContainsFinalizer(fs: seq<string>, f: string) {
    f in fs
  }

  /** Appends `f` unless it is already present; reports whether it appended. */
  function AddFinalizer(fs: seq<string>, f: string): (r: (seq<string>, bool))
    ensures f in r.0
    ensures r.1 <==> f !in fs
    ensures forall x :: x != f ==> (x in r.0 <==> x in fs)
    ensures multiset(r.0)[f] == if f in fs then multiset(fs)[f] else 1
    ensures f in fs ==> r.0 == fs
    ensures f !in fs ==> |r.0| == |fs| + 1 && r.0[..|fs|] == fs && r.0[|fs|] == f
  {
    if f in fs then (fs, false) else (fs + [f], true)
  }

  /** Drops every occurrence of `f`, keeping the order of the rest; reports whether any was dropped. */
  function RemoveFinalizer(fs: seq<string>, f: string): (r: (seq<string>, bool))
    ensures f !in r.0
    ensures r.1 <==> f in fs
    ensures forall x :: x != f ==> (x in r.0 <==> x in fs)
    ensures f !in fs ==> r.0 == fs
    decreases |fs|
  {
    if |fs| == 0 then (fs, false)
    else
      var rest := RemoveFinalizer(fs[1..], f);
      if fs[0] == f then (rest.0, true)
      else
        assert fs == [fs[0]] + fs[1..];
        ([fs[0]] + rest.0, rest.1)
  }

  /** Removing a finalizer that was just added restores the list it was added to. */
  lemma RemoveAfterAdd(fs: seq<string>, f: string)
    requires f !in fs
    ensures RemoveFinalizer(AddFinalizer(fs, f).0, f) == (fs, true)
  {
    RemoveAppended(fs, f);
  }

  /** Removing a token appended to a list that lacked it gives back that list. */
  lemma {:induction false} RemoveAppended(fs: seq<string>, f: string)
    requires f !in fs
    ensures RemoveFinalizer(fs + [f], f) == (fs, true)
    decreases |fs|
  {
    if |fs| > 0 {
      assert (fs + [f])[1..] == fs[1..] + [f];
      RemoveAppended(fs[1..], f);
      assert [fs[0]] + fs[1..] == fs;
    }
  }
}

=== FILE: passes.dfy ===
/**
 * The shape of a pass: what the prelude (fetch, status initialisation,
 * finalizer attachment) leaves behind, how a pass decomposes into that
 * prelude followed by one branch, and what each branch does on its own.
 * The pass-level properties are assembled from these pieces.
 */
module Passes {
  import opened Wrappers
  import opened Conditions
  import opened HostproxyApi
  import opened Finalizers
  import opened Faults
  import opened Descriptors
  import opened Cluster
  import opened Reconciler

  /** The Hostproxy after status initialisation. */
  function Initialized(hp: Hostproxy): Hostproxy {
    hp.(conditions := if |hp.conditions| == 0 then [StartingCondition()] else hp.conditions)
  }

  /** The Hostproxy after finalizer attachment. */
  function WithFinalizer(hp: Hostproxy): Hostproxy {
    hp.(finalizers := if HostproxyFinalizer in hp.finalizers then hp.finalizers else hp.finalizers + [HostproxyFinalizer])
  }

  /** The Hostproxy as the prelude of a pass leaves it: status initialised and finalizer attached. */
  function Prepared(hp: Hostproxy): (r: Hostproxy)
    ensures HostproxyFinalizer in r.finalizers && |r.conditions| > 0
    ensures r.name == hp.name && r.namespace == hp.namespace && r.spec == hp.spec
    ensures r.deletionRequested == hp.deletionRequested
  {
    WithFinalizer(Initialized(hp))
  }

  /** The store calls the prelude makes for `hp` when none of them fails. */
  function PreludeCalls(hp: Hostproxy): seq<Site> {
    [GetPrimary]
    + (if |hp.conditions| == 0 then [InitStatusUpdate, InitRefetch] else [])
    + (if HostproxyFinalizer in hp.finalizers then [] else [FinalizerUpdate])
  }

  /**
   * The finalizer write the prelude makes for `hp` is one the store refuses:
   * the resource is being deleted and does not hold the token yet.
   */
  predicate AttachForbidden(hp: Hostproxy) {
    hp.deletionRequested && HostproxyFinalizer !in hp.finalizers
  }

  /**
   * Every call the prelude makes for `hp` succeeds: none fails by the oracle,
   * and the store does not refuse the finalizer write.
   */
  predicate PreludeClear(hp: Hostproxy, fail: Oracle) {
    (forall c :: c in PreludeCalls(hp) ==> c !in fail) && !AttachForbidden(hp)
  }

  /** The error a refused finalizer write returns: the oracle's, or the store's refusal. */
  function AttachError(fail: Oracle): Error {
    if FinalizerUpdate in fail then Rejected(FinalizerUpdate) else FinalizerForbidden
  }

  lemma AmongPrefix(a: seq<Site>, b: seq<Site>, sites: set<Site>)
    requires a <= b && Among(b, sites)
    ensures Among(a, sites)
  {
    assert forall i :: 0 <= i < |a| ==> a[i] == b[i];
  }

  lemma AmongConcat(a: seq<Site>, b: seq<Site>, sites: set<Site>)
    requires Among(a, sites) && Among(b, sites)
    ensures Among(a + b, sites)
  {
  }

  lemma PreludeCallsAmong(hp: Hostproxy)
    ensures Among(PreludeCalls(hp), PreludeSites)
  {
  }

  /**
   * Joins of short call lists, stated once for any sites: a pass-level
   * lemma that compares a joined trace with a literal one cites the join
   * instead of having it reassembled inside its own, larger proof.
   */
  lemma JoinCalls11(a: Site, b: Site)
    ensures [a] + [b] == [a, b]
  {
  }

  lemma JoinCalls12(a: Site, b: Site, c: Site)
    ensures [a] + [b, c] == [a, b, c]
  {
  }

  lemma JoinCalls21(a: Site, b: Site, c: Site)
    ensures [a, b] + [c] == [a, b, c]
  {
  }

  lemma JoinCalls23(a: Site, b: Site, c: Site, d: Site, e: Site)
    ensures [a, b] + [c, d, e] == [a, b, c, d, e]
  {
  }

  lemma JoinCalls42(a: Site, b: Site, c: Site, d: Site, e: Site, f: Site)
    ensures [a, b, c, d] + [e, f] == [a, b, c, d, e, f]
  {
  }

  lemma AfterAfter(a: seq<Site>, b: seq<Site>, p: Pass)
    ensures After(a, After(b, p)) == After(a + b, p)
  {
    assert a + (b + p.calls) == (a + b) + p.calls;
  }

  /** Status initialisation that is not interrupted writes and re-reads the initialised resource. */
  lemma InitializeStep(s: Store, hp: Hostproxy, fail: Oracle)
    requires s.hostproxy == Some(hp)
    requires |hp.conditions| == 0 ==> InitStatusUpdate !in fail && InitRefetch !in fail
    ensures var hp1 := Initialized(hp);
            InitializeStatus(s, hp, fail) ==
              Continue(s.(hostproxy := Some(hp1)), hp1, if |hp.conditions| == 0 then [InitStatusUpdate, InitRefetch] else [])
  {
    if |hp.conditions| == 0 {
      assert SetStatusCondition([], StartingCondition()) == [StartingCondition()];
    }
  }

  /** Finalizer attachment that is not interrupted writes the resource with the finalizer appended when missing. */
  lemma AttachStep(s: Store, hp: Hostproxy, fail: Oracle)
    requires s.hostproxy == Some(hp)
    requires HostproxyFinalizer !in hp.finalizers ==> FinalizerUpdate !in fail && !hp.deletionRequested
    ensures var hp1 := WithFinalizer(hp);
            AttachFinalizer(s, hp, fail) ==
              Continue(s.(hostproxy := Some(hp1)), hp1, if HostproxyFinalizer in hp.finalizers then [] else [FinalizerUpdate])
  {
    if HostproxyFinalizer !in hp.finalizers {
      assert AddFinalizer(hp.finalizers, HostproxyFinalizer) == (hp.finalizers + [HostproxyFinalizer], true);
    }
  }

  /**
   * When none of its calls fails, the prelude writes the prepared Hostproxy
   * and hands it to the deletion check.
   */
  lemma Prelude(s: Store, cfg: Config, fail: Oracle)
    requires s.hostproxy.Some? && PreludeClear(s.hostproxy.value, fail)
    ensures var hp := Prepared(s.hostproxy.value);
            Reconcile(s, cfg, fail) ==
              After(PreludeCalls(s.hostproxy.value), CheckDeletion(s.(hostproxy := Some(hp)), hp, cfg, fail))
  {
    var hp0 := s.hostproxy.value;
    var hp1 := Initialized(hp0);
    assert GetPrimary in PreludeCalls(hp0);
    assert |hp0.conditions| == 0 ==> InitStatusUpdate in PreludeCalls(hp0) && InitRefetch in PreludeCalls(hp0);
    assert HostproxyFinalizer !in hp0.finalizers ==> FinalizerUpdate in PreludeCalls(hp0);
    InitializeStep(s, hp0, fail);
    AttachStep(s.(hostproxy := Some(hp1)), hp1, fail);
  }

  /** Status initialisation whose write or re-read fails ends the pass with that error. */
  lemma InitializeInterrupted(s: Store, hp: Hostproxy, fail: Oracle)
    requires s.hostproxy == Some(hp) && |hp.conditions| == 0
    requires InitStatusUpdate in fail || InitRefetch in fail
    ensures InitializeStatus(s, hp, fail) ==
              if InitStatusUpdate in fail then Stop(Pass(s, Failed(Rejected(InitStatusUpdate)), [InitStatusUpdate], []))
              else Stop(Pass(s.(hostproxy := Some(Initialized(hp))), Failed(Rejected(InitRefetch)), [InitStatusUpdate, InitRefetch], []))
  {
    if InitStatusUpdate !in fail {
      assert SetStatusCondition([], StartingCondition()) == [StartingCondition()];
    }
  }

  /**
   * Finalizer attachment whose write fails, by the oracle or because the
   * resource is being deleted, ends the pass with that error.
   */
  lemma AttachInterrupted(s: Store, hp: Hostproxy, fail: Oracle)
    requires s.hostproxy == Some(hp) && HostproxyFinalizer !in hp.finalizers
    requires FinalizerUpdate in fail || hp.deletionRequested
    ensures AttachFinalizer(s, hp, fail) == Stop(Pass(s, Failed(AttachError(fail)), [FinalizerUpdate], []))
  {
    var added := AddFinalizer(hp.finalizers, HostproxyFinalizer);
    AddsFinalizerMeans(hp.finalizers, added.0);
  }

  /** A refused write or re-read during status initialisation ends the pass with that error. */
  lemma InitializationRefused(s: Store, cfg: Config, fail: Oracle)
    requires s.hostproxy.Some? && GetPrimary !in fail && |s.hostproxy.value.conditions| == 0
    requires InitStatusUpdate in fail || InitRefetch in fail
    ensures var r := Reconcile(s, cfg, fail);
      && |r.calls| >= 1 && r.calls <= PreludeCalls(s.hostproxy.value)
      && r.calls[|r.calls| - 1] in fail
      && r.outcome == Failed(Rejected(r.calls[|r.calls| - 1]))
      && r.events == []
      && r.store.deployment == s.deployment && r.store.service == s.service
      && r.store.hostproxy.Some?
  {
    InitializeInterrupted(s, s.hostproxy.value, fail);
  }

  /**
   * A refused finalizer write returns that error after the prelude's other
   * calls: the resource keeps its old finalizers. The store refuses it for a
   * resource being deleted, so such a pass never reaches the deletion branch.
   */
  lemma AttachmentRefused(s: Store, cfg: Config, fail: Oracle)
    requires s.hostproxy.Some? && GetPrimary !in fail
    requires |s.hostproxy.value.conditions| == 0 ==> InitStatusUpdate !in fail && InitRefetch !in fail
    requires HostproxyFinalizer !in s.hostproxy.value.finalizers
    requires FinalizerUpdate in fail || s.hostproxy.value.deletionRequested
    ensures var r := Reconcile(s, cfg, fail);
      && r.calls == PreludeCalls(s.hostproxy.value) && r.calls[|r.calls| - 1] == FinalizerUpdate
      && r.outcome == Failed(AttachError(fail))
      && r.events == []
      && r.store == s.(hostproxy := Some(Initialized(s.hostproxy.value)))
  {
    var hp0 := s.hostproxy.value;
    var hp1 := Initialized(hp0);
    InitializeStep(s, hp0, fail);
    AttachInterrupted(s.(hostproxy := Some(hp1)), hp1, fail);
  }

  /**
   * When one of the prelude's calls fails, the pass ends there: the failing
   * call is the last one made, its error is returned, nothing was recorded
   * and the dependents are untouched. A failing call the oracle does not
   * name is the finalizer write the store refuses.
   */
  lemma PreludeInterrupted(s: Store, cfg: Config, fail: Oracle)
    requires s.hostproxy.Some? && !PreludeClear(s.hostproxy.value, fail)
    ensures var r := Reconcile(s, cfg, fail);
            var last := r.calls[|r.calls| - 1];
      && |r.calls| >= 1 && r.calls <= PreludeCalls(s.hostproxy.value)
      && r.outcome == Failed(if last in fail then Rejected(last) else FinalizerForbidden)
      && (last !in fail ==> last == FinalizerUpdate && AttachForbidden(s.hostproxy.value))
      && r.events == []
      && r.store.deployment == s.deployment && r.store.service == s.service
      && r.store.hostproxy.Some?
  {
    var hp0 := s.hostproxy.value;
    if GetPrimary in fail {
      assert [GetPrimary] <= PreludeCalls(hp0);
    } else if |hp0.conditions| == 0 && (InitStatusUpdate in fail || InitRefetch in fail) {
      InitializationRefused(s, cfg, fail);
    } else {
      assert HostproxyFinalizer !in hp0.finalizers && (FinalizerUpdate in fail || hp0.deletionRequested);
      AttachmentRefused(s, cfg, fail);
    }
  }

  /** Preparing twice is preparing once: a second prelude makes only the fetch. */
  lemma PreparedIsStable(hp: Hostproxy)
    ensures Prepared(Prepared(hp)) == Prepared(hp)
    ensures PreludeCalls(Prepared(hp)) == [GetPrimary]
  {
  }

  /** On a live resource whose prelude succeeds, the pass goes from the prelude to Deployment convergence. */
  lemma LivePass(s: Store, cfg: Config, fail: Oracle)
    requires s.hostproxy.Some? && !s.hostproxy.value.deletionRequested && PreludeClear(s.hostproxy.value, fail)
    ensures var hp := Prepared(s.hostproxy.value);
            Reconcile(s, cfg, fail) ==
              After(PreludeCalls(s.hostproxy.value), ConvergeDeployment(s.(hostproxy := Some(hp)), hp, cfg, fail))
  {
    Prelude(s, cfg, fail);
  }

  /** On a deletion-marked resource whose prelude succeeds, the pass goes from the prelude to the deletion branch. */
  lemma DeletingPass(s: Store, cfg: Config, fail: Oracle)
    requires s.hostproxy.Some? && s.hostproxy.value.deletionRequested && PreludeClear(s.hostproxy.value, fail)
    ensures var hp := Prepared(s.hostproxy.value);
            Reconcile(s, cfg, fail) ==
              After(PreludeCalls(s.hostproxy.value), Finalize(s.(hostproxy := Some(hp)), hp, fail))
  {
    Prelude(s, cfg, fail);
  }

  /** An image reference `strings.Split(image, ":")[1]` can index. */
  predicate ImageWithTag(cfg: Config) {
    cfg.image.Some? && ':' in cfg.image.value
  }

  /** A missing Deployment is created from the descriptor and the pass ends with a one-minute requeue. */
  lemma MissingDeploymentIsCreated(s: Store, hp: Hostproxy, cfg: Config, fail: Oracle)
    requires s.deployment.None? && ImageWithTag(cfg)
    requires DeploymentLookup !in fail && DeploymentOwnerReference !in fail && DeploymentCreate !in fail
    ensures ConvergeDeployment(s, hp, cfg, fail) ==
              Pass(s.(deployment := Some(DeploymentFor(hp, cfg, fail).value)), RequeueAfterMinute,
                   [DeploymentLookup, DeploymentCreate], [])
  {
    assert GetDeployment(s, DeploymentLookup, fail) == Failure(NotFound("Deployment"));
  }

  /** A Deployment that cannot be built is written to the status as Available=False and its error returned. */
  lemma DeploymentBuildFailurePhase(s: Store, hp: Hostproxy, cfg: Config, fail: Oracle)
    requires s.hostproxy == Some(hp) && s.deployment.None?
    requires DeploymentLookup !in fail && DeploymentFailureStatusUpdate !in fail
    requires DeploymentFor(hp, cfg, fail).BuildFailed?
    ensures var e := DeploymentFor(hp, cfg, fail).error;
            ConvergeDeployment(s, hp, cfg, fail) ==
              Pass(s.(hostproxy := Some(WithCondition(hp, DeploymentFailedCondition(hp.name, e)))), Failed(e),
                   [DeploymentLookup, DeploymentFailureStatusUpdate], [])
  {
    var e := DeploymentFor(hp, cfg, fail).error;
    var hpF := WithCondition(hp, DeploymentFailedCondition(hp.name, e));
    assert GetDeployment(s, DeploymentLookup, fail) == Failure(NotFound("Deployment"));
    assert UpdateStatus(s, hpF, DeploymentFailureStatusUpdate, fail) == Success(s.(hostproxy := Some(hpF)));
  }

  /** A Deployment that is found hands the pass on to Service convergence. */
  lemma DeploymentFound(s: Store, hp: Hostproxy, cfg: Config, fail: Oracle)
    requires s.deployment.Some? && DeploymentLookup !in fail
    ensures ConvergeDeployment(s, hp, cfg, fail) ==
              After([DeploymentLookup], ConvergeService(s, hp, s.deployment.value, cfg, fail))
  {
    assert GetDeployment(s, DeploymentLookup, fail) == Success(s.deployment.value);
  }

  /** A missing Service is created from the descriptor and the pass ends with a one-minute requeue. */
  lemma MissingServiceIsCreated(s: Store, hp: Hostproxy, found: Deployment, cfg: Config, fail: Oracle)
    requires s.service.None? && (cfg.image.None? || ':' in cfg.image.value)
    requires ServiceLookup !in fail && ServiceOwnerReference !in fail && ServiceCreate !in fail
    ensures ConvergeService(s, hp, found, cfg, fail) ==
              Pass(s.(service := Some(ServiceFor(hp, cfg, fail).value)), RequeueAfterMinute,
                   [ServiceLookup, ServiceCreate], [])
  {
    assert GetService(s, ServiceLookup, fail) == Failure(NotFound("Service"));
  }

  /** A Service whose controller reference is refused is written to the status as Available=False and the error returned. */
  lemma ServiceBuildFailurePhase(s: Store, hp: Hostproxy, found: Deployment, cfg: Config, fail: Oracle)
    requires s.hostproxy == Some(hp) && s.service.None?
    requires cfg.image.None? || ':' in cfg.image.value
    requires ServiceLookup !in fail && ServiceOwnerReference in fail && ServiceFailureStatusUpdate !in fail
    ensures var e := Rejected(ServiceOwnerReference);
            ConvergeService(s, hp, found, cfg, fail) ==
              Pass(s.(hostproxy := Some(WithCondition(hp, ServiceFailedCondition(hp.name, e)))), Failed(e),
                   [ServiceLookup, ServiceFailureStatusUpdate], [])
  {
    var e := Rejected(ServiceOwnerReference);
    var hpF := WithCondition(hp, ServiceFailedCondition(hp.name, e));
    assert GetService(s, ServiceLookup, fail) == Failure(NotFound("Service"));
    assert ServiceFor(hp, cfg, fail) == BuildFailed(e);
    assert UpdateStatus(s, hpF, ServiceFailureStatusUpdate, fail) == Success(s.(hostproxy := Some(hpF)));
  }

  /** A Service that is found hands the pass on to the replica check. */
  lemma ServiceFound(s: Store, hp: Hostproxy, found: Deployment, cfg: Config, fail: Oracle)
    requires s.service.Some? && ServiceLookup !in fail
    ensures ConvergeService(s, hp, found, cfg, fail) == After([ServiceLookup], ConvergeScale(s, hp, found, fail))
  {
    assert GetService(s, ServiceLookup, fail) == Success(s.service.value);
  }

  /** With both dependents found, the pass goes on to the replica check. */
  lemma DependentsFound(s: Store, hp: Hostproxy, cfg: Config, fail: Oracle)
    requires s.deployment.Some? && s.service.Some? && DeploymentLookup !in fail && ServiceLookup !in fail
    ensures ConvergeDeployment(s, hp, cfg, fail) ==
              After([DeploymentLookup, ServiceLookup], ConvergeScale(s, hp, s.deployment.value, fail))
  {
    DeploymentFound(s, hp, cfg, fail);
    ServiceFound(s, hp, s.deployment.value, cfg, fail);
    AfterAfter([DeploymentLookup], [ServiceLookup], ConvergeScale(s, hp, s.deployment.value, fail));
    JoinCalls11(DeploymentLookup, ServiceLookup);
  }

  /** A refused replica write is followed by a re-read and Available=False/"Resizing"; the write error is returned. */
  lemma ResizeFailurePhase(s: Store, hp: Hostproxy, found: Deployment, fail: Oracle)
    requires s.hostproxy == Some(hp) && found.replicas != PinnedReplicas
    requires ScaleUpdate in fail && ResizeRefetch !in fail && ResizeFailureStatusUpdate !in fail
    ensures var e := Rejected(ScaleUpdate);
            ConvergeScale(s, hp, found, fail) ==
              Pass(s.(hostproxy := Some(WithCondition(hp, ResizeFailedCondition(hp.name, e)))), Failed(e),
                   [ScaleUpdate, ResizeRefetch, ResizeFailureStatusUpdate], [])
  {
    var e := Rejected(ScaleUpdate);
    var hpF := WithCondition(hp, ResizeFailedCondition(hp.name, e));
    assert UpdateDeployment(s, found.(replicas := PinnedReplicas), ScaleUpdate, fail) == Failure(e);
    assert GetHostproxy(s, ResizeRefetch, fail) == Success(hp);
    assert UpdateStatus(s, hpF, ResizeFailureStatusUpdate, fail) == Success(s.(hostproxy := Some(hpF)));
  }

  /** Dependent convergence when the Service's controller reference is refused and every other call succeeds. */
  lemma ServiceRefusedConvergence(s: Store, hp: Hostproxy, cfg: Config, fail: Oracle)
    requires s.hostproxy == Some(hp) && s.deployment.Some? && s.service.None?
    requires cfg.image.None? || ':' in cfg.image.value
    requires DeploymentLookup !in fail && ServiceLookup !in fail
    requires ServiceOwnerReference in fail && ServiceFailureStatusUpdate !in fail
    ensures var e := Rejected(ServiceOwnerReference);
            ConvergeDeployment(s, hp, cfg, fail) ==
              Pass(s.(hostproxy := Some(WithCondition(hp, ServiceFailedCondition(hp.name, e)))), Failed(e),
                   [DeploymentLookup, ServiceLookup, ServiceFailureStatusUpdate], [])
  {
    DeploymentFound(s, hp, cfg, fail);
    ServiceBuildFailurePhase(s, hp, s.deployment.value, cfg, fail);
    JoinCalls12(DeploymentLookup, ServiceLookup, ServiceFailureStatusUpdate);
  }

  /** Dependent convergence when the replica write is refused and every other call succeeds. */
  lemma ResizeRefusedConvergence(s: Store, hp: Hostproxy, cfg: Config, fail: Oracle)
    requires s.hostproxy == Some(hp) && s.deployment.Some? && s.service.Some?
    requires s.deployment.value.replicas != PinnedReplicas
    requires DeploymentLookup !in fail && ServiceLookup !in fail
    requires ScaleUpdate in fail && ResizeRefetch !in fail && ResizeFailureStatusUpdate !in fail
    ensures var e := Rejected(ScaleUpdate);
            ConvergeDeployment(s, hp, cfg, fail) ==
              Pass(s.(hostproxy := Some(WithCondition(hp, ResizeFailedCondition(hp.name, e)))), Failed(e),
                   [DeploymentLookup, ServiceLookup, ScaleUpdate, ResizeRefetch, ResizeFailureStatusUpdate], [])
  {
    DependentsFound(s, hp, cfg, fail);
    ResizeFailurePhase(s, hp, s.deployment.value, fail);
    JoinCalls23(DeploymentLookup, ServiceLookup, ScaleUpdate, ResizeRefetch, ResizeFailureStatusUpdate);
  }

  /**
   * Dependent convergence ends done only when it found the Deployment with
   * one replica and the Service, and then wrote Available=True.
   */
  lemma DoneOnlyWhenConverged(s: Store, hp: Hostproxy, cfg: Config, fail: Oracle)
    ensures var r := ConvergeDeployment(s, hp, cfg, fail);
            r.outcome == Done ==>
              && s.deployment.Some? && s.service.Some? && s.deployment.value.replicas == PinnedReplicas
              && r.calls == [DeploymentLookup, ServiceLookup, AvailableStatusUpdate]
              && r.store.hostproxy.Some?
              && FindStatusCondition(r.store.hostproxy.value.conditions, TypeAvailable) == Some(AvailableCondition(hp.name))
  {
    var r := ConvergeDeployment(s, hp, cfg, fail);
    if r.outcome == Done {
      assert DeploymentLookup !in fail && s.deployment.Some?;
      DeploymentFound(s, hp, cfg, fail);
      ServiceDoneOnlyWhenFound(s, hp, s.deployment.value, cfg, fail);
      JoinCalls12(DeploymentLookup, ServiceLookup, AvailableStatusUpdate);
    }
  }

  /** Service convergence ends done only when it found the Service and the replica count was already one. */
  lemma ServiceDoneOnlyWhenFound(s: Store, hp: Hostproxy, found: Deployment, cfg: Config, fail: Oracle)
    ensures var r := ConvergeService(s, hp, found, cfg, fail);
            r.outcome == Done ==>
              && s.service.Some? && found.replicas == PinnedReplicas
              && r.calls == [ServiceLookup, AvailableStatusUpdate]
              && r.store.hostproxy.Some?
              && FindStatusCondition(r.store.hostproxy.value.conditions, TypeAvailable) == Some(AvailableCondition(hp.name))
  {
    var r := ConvergeService(s, hp, found, cfg, fail);
    if r.outcome == Done {
      assert ServiceLookup !in fail && s.service.Some?;
      ServiceFound(s, hp, found, cfg, fail);
      JoinCalls11(ServiceLookup, AvailableStatusUpdate);
    }
  }

  /** The stored Hostproxy, if any, has a well-formed condition list. */
  predicate StoredConditionsWellFormed(s: Store) {
    s.hostproxy.Some? ==> WellFormedConditions(s.hostproxy.value.conditions)
  }

  /** Setting a documented condition keeps a well-formed list well-formed. */
  lemma WithConditionWellFormed(hp: Hostproxy, c: Condition)
    requires WellFormedConditions(hp.conditions) && DocumentedType(c.conditionType)
    ensures WellFormedConditions(WithCondition(hp, c).conditions)
  {
  }

  /** Whatever fails, dependent convergence only ever stores well-formed condition lists. */
  lemma ConvergenceKeepsConditionsWellFormed(s: Store, hp: Hostproxy, cfg: Config, fail: Oracle)
    requires StoredConditionsWellFormed(s) && WellFormedConditions(hp.conditions)
    ensures StoredConditionsWellFormed(ConvergeDeployment(s, hp, cfg, fail).store)
  {
    if DeploymentLookup !in fail && s.deployment.Some? {
      DeploymentFound(s, hp, cfg, fail);
      ServiceKeepsConditionsWellFormed(s, hp, s.deployment.value, cfg, fail);
    } else if DeploymentFor(hp, cfg, fail).BuildFailed? {
      WithConditionWellFormed(hp, DeploymentFailedCondition(hp.name, DeploymentFor(hp, cfg, fail).error));
    }
  }

  lemma ServiceKeepsConditionsWellFormed(s: Store, hp: Hostproxy, found: Deployment, cfg: Config, fail: Oracle)
    requires StoredConditionsWellFormed(s) && WellFormedConditions(hp.conditions)
    ensures StoredConditionsWellFormed(ConvergeService(s, hp, found, cfg, fail).store)
  {
    if ServiceLookup !in fail && s.service.Some? {
      ServiceFound(s, hp, found, cfg, fail);
      ScaleKeepsConditionsWellFormed(s, hp, found, fail);
    } else if ServiceFor(hp, cfg, fail).BuildFailed? {
      WithConditionWellFormed(hp, ServiceFailedCondition(hp.name, ServiceFor(hp, cfg, fail).error));
    }
  }

  lemma ScaleKeepsConditionsWellFormed(s: Store, hp: Hostproxy, found: Deployment, fail: Oracle)
    requires StoredConditionsWellFormed(s) && WellFormedConditions(hp.conditions)
    ensures StoredConditionsWellFormed(ConvergeScale(s, hp, found, fail).store)
  {
    WithConditionWellFormed(hp, AvailableCondition(hp.name));
    if s.hostproxy.Some? {
      var stored := s.hostproxy.value;
      WithConditionWellFormed(stored, ResizeFailedCondition(stored.name, Rejected(ScaleUpdate)));
      WithConditionWellFormed(stored, ResizeFailedCondition(stored.name, NotFound("Deployment")));
    }
  }

  /** Whatever fails, the deletion branch only ever stores well-formed condition lists. */
  lemma FinalizeKeepsConditionsWellFormed(s: Store, hp: Hostproxy, fail: Oracle)
    requires StoredConditionsWellFormed(s) && WellFormedConditions(hp.conditions)
    ensures StoredConditionsWellFormed(Finalize(s, hp, fail).store)
  {
    var hpU := WithCondition(hp, FinalizingCondition(hp.name));
    WithConditionWellFormed(hp, FinalizingCondition(hp.name));
    match UpdateStatus(s, hpU, FinalizingStatusUpdate, fail)
    case Failure(_) =>
    case Success(s1) =>
      match GetHostproxy(s1, FinalizingRefetch, fail)
      case Failure(_) =>
      case Success(hp2) =>
        WithConditionWellFormed(hp2, FinalizedCondition(hp2.name));
  }

  /** None of the deletion branch's calls fails. */
  predicate DeletionClear(fail: Oracle) {
    FinalizingStatusUpdate !in fail && FinalizingRefetch !in fail &&
    FinalizedStatusUpdate !in fail && FinalizerRemoveUpdate !in fail
  }

  /**
   * The deletion branch with the finalizer present and none of its calls
   * refused: Degraded goes Unknown, the event is recorded, Degraded goes
   * True and the finalizer is removed; a resource left without finalizers
   * is deleted by the store.
   */
  lemma FinalizePhase(s: Store, hp: Hostproxy, fail: Oracle)
    requires s.hostproxy == Some(hp) && hp.deletionRequested && HostproxyFinalizer in hp.finalizers
    requires DeletionClear(fail)
    ensures var hpT := WithCondition(WithCondition(hp, FinalizingCondition(hp.name)), FinalizedCondition(hp.name));
            var remaining := RemoveFinalizer(hp.finalizers, HostproxyFinalizer).0;
            Finalize(s, hp, fail) ==
              Pass(s.(hostproxy := if remaining == [] then None else Some(hpT.(finalizers := remaining))), Done,
                   [FinalizingStatusUpdate, FinalizingRefetch, FinalizedStatusUpdate, FinalizerRemoveUpdate],
                   [DeletingEvent(hp)])
  {
    var hpU := WithCondition(hp, FinalizingCondition(hp.name));
    var s2 := s.(hostproxy := Some(hpU));
    assert UpdateStatus(s, hpU, FinalizingStatusUpdate, fail) == Success(s2);
    assert GetHostproxy(s2, FinalizingRefetch, fail) == Success(hpU);
    var hpT := WithCondition(hpU, FinalizedCondition(hp.name));
    var s3 := s.(hostproxy := Some(hpT));
    assert UpdateStatus(s2, hpT, FinalizedStatusUpdate, fail) == Success(s3);
    var remaining := RemoveFinalizer(hp.finalizers, HostproxyFinalizer).0;
    assert RemoveFinalizer(hpT.finalizers, HostproxyFinalizer) == (remaining, true);
    AddsFinalizerMeans(hp.finalizers, remaining);
    assert DeletingEvent(hpU) == DeletingEvent(hp);
  }

  /** A refused re-read inside the deletion branch returns that error after Degraded=Unknown has been written. */
  lemma FinalizeInterrupted(s: Store, hp: Hostproxy, fail: Oracle)
    requires s.hostproxy == Some(hp) && HostproxyFinalizer in hp.finalizers
    requires FinalizingStatusUpdate !in fail && FinalizingRefetch in fail
    ensures var hpU := WithCondition(hp, FinalizingCondition(hp.name));
            Finalize(s, hp, fail) ==
              Pass(s.(hostproxy := Some(hpU)), Failed(Rejected(FinalizingRefetch)),
                   [FinalizingStatusUpdate, FinalizingRefetch], [DeletingEvent(hp)])
  {
    var hpU := WithCondition(hp, FinalizingCondition(hp.name));
    assert UpdateStatus(s, hpU, FinalizingStatusUpdate, fail) == Success(s.(hostproxy := Some(hpU)));
    assert DeletingEvent(hpU) == DeletingEvent(hp);
  }

  /**
   * The deletion branch with its finalizer present never requeues: the
   * finalizer it removes was read back from the store, so the removal always
   * has something to remove.
   */
  lemma FinalizeNeverRequeues(s: Store, hp: Hostproxy, fail: Oracle)
    requires s.hostproxy == Some(hp) && HostproxyFinalizer in hp.finalizers
    ensures !Finalize(s, hp, fail).outcome.Requeue?
  {
    var hpU := WithCondition(hp, FinalizingCondition(hp.name));
    match UpdateStatus(s, hpU, FinalizingStatusUpdate, fail)
    case Failure(_) =>
    case Success(s1) =>
      match GetHostproxy(s1, FinalizingRefetch, fail)
      case Failure(_) =>
      case Success(hp2) =>
        assert hp2.finalizers == hp.finalizers;
  }
}

=== FILE: properties.dfy ===
/**
 * Properties of single reconciliation passes, for a chosen failure oracle or
 * for every one, and of chains of passes.
 */
module ReconcilerProperties {
  import opened Wrappers
  import opened Text
  import opened Conditions
  import opened HostproxyApi
  import opened Finalizers
  import opened Faults
  import opened Descriptors
  import opened Cluster
  import opened Reconciler
  import opened Passes

  /** A Hostproxy just created by a user: no status, no finalizer, not being deleted. */
  predicate FreshResource(hp: Hostproxy) {
    hp.conditions == [] && hp.finalizers == [] && !hp.deletionRequested
  }

  /** The converged state: finalizer on, both dependents present, one replica, Available=True. */
  predicate Steady(s: Store) {
    && s.hostproxy.Some?
    && var hp := s.hostproxy.value;
    && !hp.deletionRequested
    && HostproxyFinalizer in hp.finalizers
    && FindStatusCondition(hp.conditions, TypeAvailable) == Some(AvailableCondition(hp.name))
    && s.deployment.Some? && s.deployment.value.replicas == PinnedReplicas
    && s.service.Some?
  }

  // ---------------------------------------------------------------------
  // Passes whose calls all succeed, and the convergence they drive

  /** The prelude on a fresh resource writes the initial condition and the finalizer, in four calls. */
  lemma FreshPrelude(hp: Hostproxy)
    requires FreshResource(hp)
    ensures Prepared(hp) == hp.(conditions := [StartingCondition()], finalizers := [HostproxyFinalizer])
    ensures PreludeCalls(hp) == [GetPrimary, InitStatusUpdate, InitRefetch, FinalizerUpdate]
  {
    var none: seq<string> := [];
    assert none + [HostproxyFinalizer] == [HostproxyFinalizer];
    assert [GetPrimary] + [InitStatusUpdate, InitRefetch] + [FinalizerUpdate] == [GetPrimary, InitStatusUpdate, InitRefetch, FinalizerUpdate];
  }

  /** A first pass on a fresh resource: status initialised, finalizer attached, Deployment created. */
  lemma FirstPassCreatesDeployment(hp: Hostproxy, cfg: Config, fail: Oracle)
    requires FreshResource(hp) && ImageWithTag(cfg) && PreludeClear(hp, fail)
    requires DeploymentLookup !in fail && DeploymentOwnerReference !in fail && DeploymentCreate !in fail
    ensures var r := Reconcile(Store(Some(hp), None, None), cfg, fail);
      && r.outcome == RequeueAfterMinute
      && r.calls == [GetPrimary, InitStatusUpdate, InitRefetch, FinalizerUpdate, DeploymentLookup, DeploymentCreate]
      && r.store.hostproxy == Some(hp.(conditions := [StartingCondition()], finalizers := [HostproxyFinalizer]))
      && r.store.deployment.Some? && r.store.service.None?
      && r.store.deployment.value.name == hp.name && r.store.deployment.value.namespace == hp.namespace
      && r.store.deployment.value.replicas == 1
      && r.store.deployment.value.template.containers[0].env == [EnvVar(PortsEnvVar, PortsValue(hp.spec))]
  {
    var s := Store(Some(hp), None, None);
    var hp1 := Prepared(hp);
    FreshPrelude(hp);
    LivePass(s, cfg, fail);
    MissingDeploymentIsCreated(s.(hostproxy := Some(hp1)), hp1, cfg, fail);
    JoinCalls42(GetPrimary, InitStatusUpdate, InitRefetch, FinalizerUpdate, DeploymentLookup, DeploymentCreate);
  }

  /** A pass that finds the Deployment but not the Service creates the Service and nothing else. */
  lemma SecondPassCreatesService(s: Store, cfg: Config, fail: Oracle)
    requires s.hostproxy.Some? && !s.hostproxy.value.deletionRequested && PreludeClear(s.hostproxy.value, fail)
    requires s.deployment.Some? && s.service.None? && (cfg.image.None? || ':' in cfg.image.value)
    requires DeploymentLookup !in fail && ServiceLookup !in fail && ServiceOwnerReference !in fail && ServiceCreate !in fail
    ensures var r := Reconcile(s, cfg, fail);
            var hp := Prepared(s.hostproxy.value);
      && r.outcome == RequeueAfterMinute
      && r.calls == PreludeCalls(s.hostproxy.value) + [DeploymentLookup, ServiceLookup, ServiceCreate]
      && r.store == Store(Some(hp), s.deployment, Some(ServiceFor(hp, cfg, fail).value))
      && r.store.service.value.clusterIP == "None"
      && r.store.service.value.selector[InstanceLabel] == hp.name
  {
    var hp := Prepared(s.hostproxy.value);
    var s1 := s.(hostproxy := Some(hp));
    LivePass(s, cfg, fail);
    DeploymentFound(s1, hp, cfg, fail);
    MissingServiceIsCreated(s1, hp, s.deployment.value, cfg, fail);
    JoinCalls12(DeploymentLookup, ServiceLookup, ServiceCreate);
  }

  /**
   * A pass that finds both dependents and one replica sets Available=True
   * with the success message and is done; nothing but the conditions changes.
   */
  lemma ConvergedPassReportsAvailable(s: Store, cfg: Config, fail: Oracle)
    requires s.hostproxy.Some? && !s.hostproxy.value.deletionRequested && PreludeClear(s.hostproxy.value, fail)
    requires s.deployment.Some? && s.service.Some? && s.deployment.value.replicas == PinnedReplicas
    requires DeploymentLookup !in fail && ServiceLookup !in fail && AvailableStatusUpdate !in fail
    ensures var r := Reconcile(s, cfg, fail);
            var hp := Prepared(s.hostproxy.value);
      && r.outcome == Done
      && r.calls == PreludeCalls(s.hostproxy.value) + [DeploymentLookup, ServiceLookup, AvailableStatusUpdate]
      && r.store == s.(hostproxy := Some(WithCondition(hp, AvailableCondition(hp.name))))
      && FindStatusCondition(r.store.hostproxy.value.conditions, TypeAvailable) == Some(AvailableCondition(hp.name))
      && Steady(r.store)
  {
    var hp := Prepared(s.hostproxy.value);
    var s1 := s.(hostproxy := Some(hp));
    LivePass(s, cfg, fail);
    DependentsFound(s1, hp, cfg, fail);
    var hpA := WithCondition(hp, AvailableCondition(hp.name));
    assert UpdateStatus(s1, hpA, AvailableStatusUpdate, fail) == Success(s.(hostproxy := Some(hpA)));
    var p := SteadyState(s1, hp, fail);
    assert ConvergeScale(s1, hp, s.deployment.value, fail) == p;
    JoinCalls21(DeploymentLookup, ServiceLookup, AvailableStatusUpdate);
  }

  /** A pass over the converged state writes back exactly what is there: the store is unchanged. */
  lemma SteadyPassChangesNothing(s: Store, cfg: Config, fail: Oracle)
    requires Steady(s)
    requires GetPrimary !in fail && DeploymentLookup !in fail && ServiceLookup !in fail && AvailableStatusUpdate !in fail
    ensures Reconcile(s, cfg, fail) ==
              Pass(s, Done, [GetPrimary, DeploymentLookup, ServiceLookup, AvailableStatusUpdate], [])
  {
    var hp := s.hostproxy.value;
    assert |hp.conditions| > 0;
    assert Prepared(hp) == hp;
    assert PreludeCalls(hp) == [GetPrimary];
    SetStatusConditionUnchanged(hp.conditions, AvailableCondition(hp.name));
    ConvergedPassReportsAvailable(s, cfg, fail);
    assert s.(hostproxy := Some(hp)) == s;
  }

  /** A Deployment with a replica count other than 1 is written back with exactly 1 and the pass requeues at once. */
  lemma ReplicasArePinned(s: Store, cfg: Config, fail: Oracle)
    requires s.hostproxy.Some? && !s.hostproxy.value.deletionRequested && PreludeClear(s.hostproxy.value, fail)
    requires s.deployment.Some? && s.service.Some? && s.deployment.value.replicas != PinnedReplicas
    requires DeploymentLookup !in fail && ServiceLookup !in fail && ScaleUpdate !in fail
    ensures var r := Reconcile(s, cfg, fail);
      && r.outcome == Requeue
      && r.calls == PreludeCalls(s.hostproxy.value) + [DeploymentLookup, ServiceLookup, ScaleUpdate]
      && r.store == Store(Some(Prepared(s.hostproxy.value)), Some(s.deployment.value.(replicas := 1)), s.service)
  {
    var hp := Prepared(s.hostproxy.value);
    var s1 := s.(hostproxy := Some(hp));
    LivePass(s, cfg, fail);
    DependentsFound(s1, hp, cfg, fail);
    JoinCalls21(DeploymentLookup, ServiceLookup, ScaleUpdate);
  }

  /** The store a first fault-free pass leaves: the prepared resource with its Deployment, no Service. */
  predicate AfterFirstPass(s: Store, hp: Hostproxy) {
    && s.hostproxy == Some(hp.(conditions := [StartingCondition()], finalizers := [HostproxyFinalizer]))
    && !hp.deletionRequested
    && s.deployment.Some? && s.deployment.value.replicas == PinnedReplicas && s.service.None?
  }

  /** The store a second fault-free pass leaves: as after the first, now with the Service. */
  predicate AfterSecondPass(s: Store, hp: Hostproxy) {
    && s.hostproxy == Some(hp.(conditions := [StartingCondition()], finalizers := [HostproxyFinalizer]))
    && !hp.deletionRequested
    && s.deployment.Some? && s.deployment.value.replicas == PinnedReplicas && s.service.Some?
  }

  /** From the store the first pass leaves, a second fault-free pass creates the Service and nothing else. */
  lemma SecondPassFromFirst(s1: Store, hp: Hostproxy, cfg: Config)
    requires AfterFirstPass(s1, hp) && ImageWithTag(cfg)
    ensures var p2 := Reconcile(s1, cfg, NoFaults);
      && p2.outcome == RequeueAfterMinute && p2.store.deployment == s1.deployment
      && AfterSecondPass(p2.store, hp)
  {
    var hp1 := s1.hostproxy.value;
    assert Prepared(hp1) == hp1;
    assert PreludeCalls(hp1) == [GetPrimary];
    SecondPassCreatesService(s1, cfg, NoFaults);
  }

  /** From the store the second pass leaves, a third fault-free pass reports Available=True, its only condition. */
  lemma ThirdPassFromSecond(s2: Store, hp: Hostproxy, cfg: Config)
    requires AfterSecondPass(s2, hp)
    ensures var p3 := Reconcile(s2, cfg, NoFaults);
      && p3.outcome == Done && Steady(p3.store)
      && p3.store.hostproxy.value.conditions == [AvailableCondition(hp.name)]
      && p3.store.hostproxy.value.finalizers == [HostproxyFinalizer]
  {
    var hp2 := s2.hostproxy.value;
    assert Prepared(hp2) == hp2;
    ConvergedPassReportsAvailable(s2, cfg, NoFaults);
    var c := AvailableCondition(hp.name);
    var after := SetStatusCondition([StartingCondition()], c);
    assert |after| == 1 && after[0] == c;
  }

  /**
   * Three fault-free passes over a fresh resource: the first creates the
   * Deployment, the second the Service, the third reports Available=True;
   * a fourth changes nothing.
   */
  lemma ThreePassesConverge(hp: Hostproxy, cfg: Config)
    requires FreshResource(hp) && ImageWithTag(cfg)
    ensures var p1 := Reconcile(Store(Some(hp), None, None), cfg, NoFaults);
            var p2 := Reconcile(p1.store, cfg, NoFaults);
            var p3 := Reconcile(p2.store, cfg, NoFaults);
      && p1.outcome == RequeueAfterMinute && p1.store.deployment.Some? && p1.store.service.None?
      && p2.outcome == RequeueAfterMinute && p2.store.deployment == p1.store.deployment && p2.store.service.Some?
      && p3.outcome == Done && Steady(p3.store)
      && p3.store.hostproxy.value.conditions == [AvailableCondition(hp.name)]
      && p3.store.hostproxy.value.finalizers == [HostproxyFinalizer]
      && Reconcile(p3.store, cfg, NoFaults).store == p3.store
  {
    FirstPassCreatesDeployment(hp, cfg, NoFaults);
    var p1 := Reconcile(Store(Some(hp), None, None), cfg, NoFaults);
    SecondPassFromFirst(p1.store, hp, cfg);
    var p2 := Reconcile(p1.store, cfg, NoFaults);
    ThirdPassFromSecond(p2.store, hp, cfg);
    var p3 := Reconcile(p2.store, cfg, NoFaults);
    SteadyPassChangesNothing(p3.store, cfg, NoFaults);
  }

  /**
   * Passes are not idempotent in general: on a fresh resource the second
   * pass changes the store the first one left. Only a converged store is a
   * fixed point.
   */
  lemma PassesAreNotIdempotent(hp: Hostproxy, cfg: Config)
    requires FreshResource(hp) && ImageWithTag(cfg)
    ensures var s1 := Reconcile(Store(Some(hp), None, None), cfg, NoFaults).store;
            Reconcile(s1, cfg, NoFaults).store != s1
  {
    ThreePassesConverge(hp, cfg);
  }

  /** The resource the controller's own test creates. */
  function TestResource(): Hostproxy {
    Hostproxy("test-hostproxy", "test-hostproxy", HostproxySpec(10541, 80), false, [], [])
  }

  /** The image the controller's own test configures. */
  const TestImage: string := "example.com/image:test"

  /** The success message with the pinned count spelled out, for any resource name. */
  lemma AvailableMessage(name: string)
    ensures AvailableCondition(name).message ==
              "Deployment for custom resource (" + name + ") with " + "1" + " replicas created successfully"
  {
    assert DigitChar(1) == '1';
    assert IntToString(PinnedReplicas) == "1";
  }

  /**
   * The controller test's scenario: with the test image the first pass
   * builds a Deployment whose `PORTS` is "80:10541" and whose version label
   * is "test", and after three passes the only (so the latest) condition is
   * Available=True with the success message the test expects.
   */
  lemma TestScenarioConverges(hp: Hostproxy, cfg: Config)
    requires hp == TestResource() && cfg == Config(Some(TestImage))
    ensures var p1 := Reconcile(Store(Some(hp), None, None), cfg, NoFaults);
            var p3 := Reconcile(Reconcile(p1.store, cfg, NoFaults).store, cfg, NoFaults);
      && p1.store.deployment.Some?
      && p1.store.deployment.value.template.containers[0].env == [EnvVar("PORTS", "80:10541")]
      && p1.store.deployment.value.template.labels[VersionLabel] == "test"
      && p3.outcome == Done
      && p3.store.hostproxy.value.conditions ==
           [Condition("Available", ConditionTrue, "Reconciling",
                      "Deployment for custom resource (" + hp.name + ") with " + "1" + " replicas created successfully")]
  {
    assert TestImage[17] == ':';
    FirstPassCreatesDeployment(hp, cfg, NoFaults);
    ThreePassesConverge(hp, cfg);
    PortsOfTestResource();
    VersionOfTestImage();
    AvailableMessage(hp.name);
  }

  // ---------------------------------------------------------------------
  // The deletion branch

  /**
   * A pass over a resource marked for deletion whose calls all succeed (so
   * it already holds this controller's finalizer): Degraded goes Unknown
   * then True, the event is recorded, the finalizer is removed and the
   * dependents are left alone. Without other finalizers the store then
   * deletes the resource.
   */
  lemma DeletionPassRemovesFinalizer(s: Store, cfg: Config, fail: Oracle)
    requires s.hostproxy.Some? && s.hostproxy.value.deletionRequested
    requires PreludeClear(s.hostproxy.value, fail) && DeletionClear(fail)
    ensures var r := Reconcile(s, cfg, fail);
            var hp0 := s.hostproxy.value;
            var remaining := RemoveFinalizer(hp0.finalizers, HostproxyFinalizer).0;
      && HostproxyFinalizer in hp0.finalizers
      && r.outcome == Done
      && r.calls == PreludeCalls(hp0) + [FinalizingStatusUpdate, FinalizingRefetch, FinalizedStatusUpdate, FinalizerRemoveUpdate]
      && r.events == [DeletingEvent(hp0)]
      && r.store.deployment == s.deployment && r.store.service == s.service
      && (remaining == [] <==> r.store.hostproxy.None?)
      && (r.store.hostproxy.Some? ==>
            && r.store.hostproxy.value.finalizers == remaining
            && FindStatusCondition(r.store.hostproxy.value.conditions, TypeDegraded) == Some(FinalizedCondition(hp0.name)))
  {
    var hp0 := s.hostproxy.value;
    var hp := Prepared(hp0);
    DeletingPass(s, cfg, fail);
    FinalizePhase(s.(hostproxy := Some(hp)), hp, fail);
    assert RemoveFinalizer(hp.finalizers, HostproxyFinalizer).0 == RemoveFinalizer(hp0.finalizers, HostproxyFinalizer).0;
    assert DeletingEvent(hp) == DeletingEvent(hp0);
  }

  /**
   * A resource marked for deletion before this controller attached its
   * finalizer is stuck: the store refuses the attachment, so the pass fails
   * before the deletion branch, records nothing and leaves the finalizers
   * as they were; the next pass over what it leaves fails the same way.
   */
  lemma DeletionBeforeAttachmentIsStuck(s: Store, cfg: Config, fail: Oracle)
    requires s.hostproxy.Some? && AttachForbidden(s.hostproxy.value)
    requires GetPrimary !in fail && InitStatusUpdate !in fail && InitRefetch !in fail && FinalizerUpdate !in fail
    ensures var r := Reconcile(s, cfg, fail);
            var hp0 := s.hostproxy.value;
      && r.outcome == Failed(FinalizerForbidden)
      && r.calls == PreludeCalls(hp0)
      && r.events == []
      && r.store == s.(hostproxy := Some(Initialized(hp0)))
      && Reconcile(r.store, cfg, fail) == Pass(r.store, Failed(FinalizerForbidden), [GetPrimary, FinalizerUpdate], [])
  {
    var hp0 := s.hostproxy.value;
    var hp1 := Initialized(hp0);
    var s1 := s.(hostproxy := Some(hp1));
    AttachmentRefused(s, cfg, fail);
    assert Reconcile(s, cfg, fail).store == s1;
    assert AttachForbidden(hp1) && |hp1.conditions| > 0;
    RefusedAttachmentRepeats(s1, cfg, fail);
  }

  /** Once initialised, a resource whose attachment the store refuses fails every pass after two calls, unchanged. */
  lemma RefusedAttachmentRepeats(s: Store, cfg: Config, fail: Oracle)
    requires s.hostproxy.Some? && AttachForbidden(s.hostproxy.value) && |s.hostproxy.value.conditions| > 0
    requires GetPrimary !in fail && FinalizerUpdate !in fail
    ensures Reconcile(s, cfg, fail) == Pass(s, Failed(FinalizerForbidden), [GetPrimary, FinalizerUpdate], [])
  {
    var hp := s.hostproxy.value;
    AttachmentRefused(s, cfg, fail);
    assert Initialized(hp) == hp;
    assert PreludeCalls(hp) == [GetPrimary, FinalizerUpdate];
  }

  /**
   * When the re-read inside the deletion branch fails, the pass returns that
   * error with Degraded=Unknown written and the finalizer still in place.
   */
  lemma DeletionInterruptedLeavesDegradedUnknown(s: Store, cfg: Config, fail: Oracle)
    requires s.hostproxy.Some? && s.hostproxy.value.deletionRequested && PreludeClear(s.hostproxy.value, fail)
    requires FinalizingStatusUpdate !in fail && FinalizingRefetch in fail
    ensures var r := Reconcile(s, cfg, fail);
            var hp0 := s.hostproxy.value;
      && r.outcome == Failed(Rejected(FinalizingRefetch))
      && r.events == [DeletingEvent(hp0)]
      && r.store.hostproxy.Some?
      && HostproxyFinalizer in r.store.hostproxy.value.finalizers
      && FindStatusCondition(r.store.hostproxy.value.conditions, TypeDegraded) == Some(FinalizingCondition(hp0.name))
      && r.store.deployment == s.deployment && r.store.service == s.service
  {
    var hp := Prepared(s.hostproxy.value);
    DeletingPass(s, cfg, fail);
    FinalizeInterrupted(s.(hostproxy := Some(hp)), hp, fail);
    assert DeletingEvent(hp) == DeletingEvent(s.hostproxy.value);
  }

  /**
   * Whatever fails, a pass over a deletion-marked resource makes only
   * prelude and deletion calls (so it never looks up, creates or resizes a
   * dependent), never asks for the one-minute requeue, and leaves both
   * dependents as they were.
   */
  lemma DeletionNeverTouchesDependents(s: Store, cfg: Config, fail: Oracle)
    requires s.hostproxy.Some? && s.hostproxy.value.deletionRequested
    ensures var r := Reconcile(s, cfg, fail);
      && r.store.deployment == s.deployment && r.store.service == s.service
      && Among(r.calls, PreludeSites + DeletionSites)
      && r.outcome != RequeueAfterMinute
  {
    var hp0 := s.hostproxy.value;
    var r := Reconcile(s, cfg, fail);
    var all := PreludeSites + DeletionSites;
    PreludeCallsAmong(hp0);
    if PreludeClear(hp0, fail) {
      var hp := Prepared(hp0);
      DeletingPass(s, cfg, fail);
      var p := Finalize(s.(hostproxy := Some(hp)), hp, fail);
      AmongPrefix(p.calls, [FinalizingStatusUpdate, FinalizingRefetch, FinalizedStatusUpdate, FinalizerRemoveUpdate], all);
      AmongConcat(PreludeCalls(hp0), p.calls, all);
    } else {
      PreludeInterrupted(s, cfg, fail);
      AmongPrefix(r.calls, PreludeCalls(hp0), all);
    }
  }

  // ---------------------------------------------------------------------
  // The prelude under any failure oracle

  /**
   * A resource with no conditions gets Available=Unknown written right
   * after the fetch, and the next call re-reads it: nothing else is written
   * in between. A refused write ends the pass with the store unchanged; a
   * refused re-read ends it with the initial condition in place.
   */
  lemma StatusInitialisedFirst(s: Store, cfg: Config, fail: Oracle)
    requires s.hostproxy.Some? && s.hostproxy.value.conditions == [] && GetPrimary !in fail
    ensures var r := Reconcile(s, cfg, fail);
      && |r.calls| >= 2 && r.calls[1] == InitStatusUpdate
      && (InitStatusUpdate in fail ==> r == Pass(s, Failed(Rejected(InitStatusUpdate)), [GetPrimary, InitStatusUpdate], []))
      && (InitStatusUpdate !in fail ==> |r.calls| >= 3 && r.calls[2] == InitRefetch)
      && (InitStatusUpdate !in fail && InitRefetch in fail ==>
            && r.outcome == Failed(Rejected(InitRefetch))
            && r.store.hostproxy.Some? && r.store.hostproxy.value.conditions == [StartingCondition()])
  {
    var hp0 := s.hostproxy.value;
    if InitStatusUpdate in fail || InitRefetch in fail {
      InitializeInterrupted(s, hp0, fail);
    } else {
      assert PreludeCalls(hp0)[..3] == [GetPrimary, InitStatusUpdate, InitRefetch];
      if PreludeClear(hp0, fail) {
        Prelude(s, cfg, fail);
      } else {
        AttachmentRefused(s, cfg, fail);
      }
    }
  }

  /**
   * A live pass that gets past finalizer attachment (it reaches the
   * Deployment lookup) leaves the resource holding exactly its old
   * finalizers, plus this controller's appended once when it was missing.
   */
  lemma FinalizerKeptPastAttachment(s: Store, cfg: Config, fail: Oracle)
    requires s.hostproxy.Some? && !s.hostproxy.value.deletionRequested
    ensures var r := Reconcile(s, cfg, fail);
            var fs := s.hostproxy.value.finalizers;
            DeploymentLookup in r.calls ==>
              && r.store.hostproxy.Some?
              && r.store.hostproxy.value.finalizers ==
                   (if HostproxyFinalizer in fs then fs else fs + [HostproxyFinalizer])
              && multiset(r.store.hostproxy.value.finalizers)[HostproxyFinalizer] ==
                   (if HostproxyFinalizer in fs then multiset(fs)[HostproxyFinalizer] else 1)
  {
    var hp0 := s.hostproxy.value;
    var r := Reconcile(s, cfg, fail);
    if PreludeClear(hp0, fail) {
      var hp := Prepared(hp0);
      LivePass(s, cfg, fail);
      var p := ConvergeDeployment(s.(hostproxy := Some(hp)), hp, cfg, fail);
      assert OnlyConditionsDiffer(Some(hp), p.store.hostproxy);
      assert r.store.hostproxy.value.finalizers == hp.finalizers;
      var added := AddFinalizer(hp0.finalizers, HostproxyFinalizer);
      assert hp.finalizers == added.0;
    } else {
      PreludeInterrupted(s, cfg, fail);
      PreludeCallsAmong(hp0);
      AmongPrefix(r.calls, PreludeCalls(hp0), PreludeSites);
    }
  }

  /**
   * Whatever fails, a pass ends with an immediate requeue only right after a
   * successful replica write: the finalizer-refusal branches of attachment
   * and removal are unreachable.
   */
  lemma RequeueOnlyAfterResize(s: Store, cfg: Config, fail: Oracle)
    ensures var r := Reconcile(s, cfg, fail);
            r.outcome == Requeue ==> r.calls[|r.calls| - 1] == ScaleUpdate
  {
    if s.hostproxy.Some? && GetPrimary !in fail {
      if PreludeClear(s.hostproxy.value, fail) {
        ClearPreludeRequeuesOnlyAfterResize(s, cfg, fail);
      } else {
        PreludeInterrupted(s, cfg, fail);
      }
    }
  }

  /** The same for a pass whose prelude succeeds. */
  lemma ClearPreludeRequeuesOnlyAfterResize(s: Store, cfg: Config, fail: Oracle)
    requires s.hostproxy.Some? && PreludeClear(s.hostproxy.value, fail)
    ensures var r := Reconcile(s, cfg, fail);
            r.outcome == Requeue ==> r.calls[|r.calls| - 1] == ScaleUpdate
  {
    var hp := Prepared(s.hostproxy.value);
    var p := CheckDeletion(s.(hostproxy := Some(hp)), hp, cfg, fail);
    CheckedRequeueFollowsResize(s.(hostproxy := Some(hp)), hp, cfg, fail);
    RequeueKeepsLastCall(PreludeCalls(s.hostproxy.value), p);
    Prelude(s, cfg, fail);
  }

  /** A pass that requeues only after the replica write still does so once `prefix` is put before it. */
  lemma RequeueKeepsLastCall(prefix: seq<Site>, p: Pass)
    requires p.outcome == Requeue ==> |p.calls| >= 1 && p.calls[|p.calls| - 1] == ScaleUpdate
    ensures var r := After(prefix, p);
            r.outcome == Requeue ==> r.calls[|r.calls| - 1] == ScaleUpdate
  {
  }

  /** After a prelude that attached the finalizer, either branch requeues only after the replica write. */
  lemma CheckedRequeueFollowsResize(s: Store, hp: Hostproxy, cfg: Config, fail: Oracle)
    requires s.hostproxy == Some(hp) && HostproxyFinalizer in hp.finalizers
    ensures var r := CheckDeletion(s, hp, cfg, fail);
            r.outcome == Requeue ==> |r.calls| >= 1 && r.calls[|r.calls| - 1] == ScaleUpdate
  {
    if hp.deletionRequested {
      FinalizeNeverRequeues(s, hp, fail);
    }
  }

  /**
   * Whatever fails, a pass over a live resource that ends without error or
   * requeue found both dependents with the replica count at one, and wrote
   * Available=True as the resource's latest word.
   */
  lemma AvailableOnlyWhenConverged(s: Store, cfg: Config, fail: Oracle)
    requires s.hostproxy.Some? && !s.hostproxy.value.deletionRequested
    ensures var r := Reconcile(s, cfg, fail);
            r.outcome == Done ==>
              && s.deployment.Some? && s.service.Some? && s.deployment.value.replicas == PinnedReplicas
              && r.store.hostproxy.Some?
              && FindStatusCondition(r.store.hostproxy.value.conditions, TypeAvailable)
                   == Some(AvailableCondition(s.hostproxy.value.name))
  {
    var hp0 := s.hostproxy.value;
    if PreludeClear(hp0, fail) {
      var hp := Prepared(hp0);
      LivePass(s, cfg, fail);
      DoneOnlyWhenConverged(s.(hostproxy := Some(hp)), hp, cfg, fail);
    } else {
      PreludeInterrupted(s, cfg, fail);
    }
  }

  /**
   * Whatever fails, a pass keeps the stored condition list as the schema
   * describes it: every write goes through the merge by type, so no type
   * appears twice, and only documented types are ever written.
   */
  lemma PassKeepsConditionsWellFormed(s: Store, cfg: Config, fail: Oracle)
    requires StoredConditionsWellFormed(s)
    ensures StoredConditionsWellFormed(Reconcile(s, cfg, fail).store)
  {
    if s.hostproxy.Some? && GetPrimary !in fail {
      var hp0 := s.hostproxy.value;
      if |hp0.conditions| == 0 && (InitStatusUpdate in fail || InitRefetch in fail) {
        InterruptedPreludeKeepsConditionsWellFormed(s, cfg, fail);
      } else if HostproxyFinalizer !in hp0.finalizers && (FinalizerUpdate in fail || hp0.deletionRequested) {
        InterruptedPreludeKeepsConditionsWellFormed(s, cfg, fail);
      } else {
        assert PreludeClear(hp0, fail);
        ClearPreludeKeepsConditionsWellFormed(s, cfg, fail);
      }
    }
  }

  /**
   * The same for a pass cut short in the prelude: it leaves the resource
   * as it was or with the "Starting" condition written.
   */
  lemma InterruptedPreludeKeepsConditionsWellFormed(s: Store, cfg: Config, fail: Oracle)
    requires StoredConditionsWellFormed(s) && s.hostproxy.Some? && GetPrimary !in fail
    requires || (|s.hostproxy.value.conditions| == 0 && (InitStatusUpdate in fail || InitRefetch in fail))
             || (HostproxyFinalizer !in s.hostproxy.value.finalizers && (FinalizerUpdate in fail || s.hostproxy.value.deletionRequested))
    ensures StoredConditionsWellFormed(Reconcile(s, cfg, fail).store)
  {
    var hp0 := s.hostproxy.value;
    var s1 := s.(hostproxy := Some(Initialized(hp0)));
    assert |hp0.conditions| == 0 ==> Initialized(hp0).conditions == [StartingCondition()];
    assert StoredConditionsWellFormed(s1);
    if |hp0.conditions| == 0 && (InitStatusUpdate in fail || InitRefetch in fail) {
      InitializeInterrupted(s, hp0, fail);
    } else {
      AttachmentRefused(s, cfg, fail);
    }
  }

  /** The same for a pass whose prelude succeeds: both branches after it keep the list well-formed. */
  lemma ClearPreludeKeepsConditionsWellFormed(s: Store, cfg: Config, fail: Oracle)
    requires StoredConditionsWellFormed(s) && s.hostproxy.Some? && PreludeClear(s.hostproxy.value, fail)
    ensures StoredConditionsWellFormed(Reconcile(s, cfg, fail).store)
  {
    var hp := Prepared(s.hostproxy.value);
    var s1 := s.(hostproxy := Some(hp));
    assert WellFormedConditions(hp.conditions);
    if hp.deletionRequested {
      FinalizeKeepsConditionsWellFormed(s1, hp, fail);
    } else {
      ConvergenceKeepsConditionsWellFormed(s1, hp, cfg, fail);
    }
    assert StoredConditionsWellFormed(CheckDeletion(s1, hp, cfg, fail).store);
    Prelude(s, cfg, fail);
  }

  // ---------------------------------------------------------------------
  // Dependents: order of creation and failure reporting

  /**
   * Whatever fails, the Service and the replica count are only looked at
   * once a Deployment exists: without one, a pass makes only prelude,
   * deletion and Deployment calls and leaves the Service as it was. A pass
   * that creates the Deployment ends there with the one-minute requeue.
   */
  lemma DeploymentComesFirst(s: Store, cfg: Config, fail: Oracle)
    requires s.hostproxy.Some? && s.deployment.None?
    ensures var r := Reconcile(s, cfg, fail);
      && Among(r.calls, PreludeSites + DeletionSites + {DeploymentLookup, DeploymentCreate, DeploymentFailureStatusUpdate})
      && r.store.service == s.service
      && (r.store.deployment.Some? ==> r.outcome == RequeueAfterMinute && r.calls[|r.calls| - 1] == DeploymentCreate)
  {
    var hp0 := s.hostproxy.value;
    var r := Reconcile(s, cfg, fail);
    var live := {DeploymentLookup, DeploymentCreate, DeploymentFailureStatusUpdate};
    var all := PreludeSites + DeletionSites + live;
    PreludeCallsAmong(hp0);
    if !PreludeClear(hp0, fail) {
      PreludeInterrupted(s, cfg, fail);
      AmongPrefix(r.calls, PreludeCalls(hp0), all);
    } else if hp0.deletionRequested {
      DeletionNeverTouchesDependents(s, cfg, fail);
    } else {
      var hp := Prepared(hp0);
      LivePass(s, cfg, fail);
      var p := ConvergeDeployment(s.(hostproxy := Some(hp)), hp, cfg, fail);
      assert Among(p.calls, all);
      AmongConcat(PreludeCalls(hp0), p.calls, all);
      CreationEndsConvergence(s.(hostproxy := Some(hp)), hp, cfg, fail, PreludeCalls(hp0));
    }
  }

  /**
   * A convergence step that creates the Deployment ends the pass there,
   * whatever calls came before it.
   */
  lemma CreationEndsConvergence(s: Store, hp: Hostproxy, cfg: Config, fail: Oracle, prefix: seq<Site>)
    requires s.deployment.None?
    ensures var r := After(prefix, ConvergeDeployment(s, hp, cfg, fail));
            r.store.deployment.Some? ==> r.outcome == RequeueAfterMinute && r.calls[|r.calls| - 1] == DeploymentCreate
  {
  }

  /**
   * A Deployment that cannot be built (image unset, or its controller
   * reference refused) is reported as Available=False/"Reconciling" naming
   * the resource, and the build error is returned; nothing is created.
   */
  lemma DeploymentBuildFailureIsReported(s: Store, cfg: Config, fail: Oracle)
    requires s.hostproxy.Some? && !s.hostproxy.value.deletionRequested && s.deployment.None?
    requires PreludeClear(s.hostproxy.value, fail)
    requires DeploymentLookup !in fail && DeploymentFailureStatusUpdate !in fail
    requires DeploymentFor(Prepared(s.hostproxy.value), cfg, fail).BuildFailed?
    ensures var r := Reconcile(s, cfg, fail);
            var e := DeploymentFor(Prepared(s.hostproxy.value), cfg, fail).error;
            var name := s.hostproxy.value.name;
      && r.outcome == Failed(e)
      && (cfg.image.None? ==> e == ImageNotConfigured)
      && r.calls == PreludeCalls(s.hostproxy.value) + [DeploymentLookup, DeploymentFailureStatusUpdate]
      && r.store.deployment.None? && r.store.service == s.service
      && r.store.hostproxy.Some?
      && FindStatusCondition(r.store.hostproxy.value.conditions, TypeAvailable) == Some(DeploymentFailedCondition(name, e))
      && DeploymentFailedCondition(name, e).status == ConditionFalse
      && DeploymentFailedCondition(name, e).reason == "Reconciling"
  {
    var hp := Prepared(s.hostproxy.value);
    LivePass(s, cfg, fail);
    DeploymentBuildFailurePhase(s.(hostproxy := Some(hp)), hp, cfg, fail);
  }

  /** The whole pass when the Service's controller reference is refused and every other call succeeds. */
  lemma ServiceRefusedPass(s: Store, cfg: Config, fail: Oracle)
    requires s.hostproxy.Some? && !s.hostproxy.value.deletionRequested && PreludeClear(s.hostproxy.value, fail)
    requires s.deployment.Some? && s.service.None? && (cfg.image.None? || ':' in cfg.image.value)
    requires DeploymentLookup !in fail && ServiceLookup !in fail
    requires ServiceOwnerReference in fail && ServiceFailureStatusUpdate !in fail
    ensures var e := Rejected(ServiceOwnerReference);
            var hp := Prepared(s.hostproxy.value);
            Reconcile(s, cfg, fail) ==
              Pass(s.(hostproxy := Some(WithCondition(hp, ServiceFailedCondition(hp.name, e)))), Failed(e),
                   PreludeCalls(s.hostproxy.value) + [DeploymentLookup, ServiceLookup, ServiceFailureStatusUpdate], [])
  {
    var hp := Prepared(s.hostproxy.value);
    LivePass(s, cfg, fail);
    ServiceRefusedConvergence(s.(hostproxy := Some(hp)), hp, cfg, fail);
  }

  /** A Service whose controller reference is refused is reported the same way. */
  lemma ServiceBuildFailureIsReported(s: Store, cfg: Config, fail: Oracle)
    requires s.hostproxy.Some? && !s.hostproxy.value.deletionRequested && PreludeClear(s.hostproxy.value, fail)
    requires s.deployment.Some? && s.service.None? && (cfg.image.None? || ':' in cfg.image.value)
    requires DeploymentLookup !in fail && ServiceLookup !in fail
    requires ServiceOwnerReference in fail && ServiceFailureStatusUpdate !in fail
    ensures var r := Reconcile(s, cfg, fail);
            var e := Rejected(ServiceOwnerReference);
      && r.outcome == Failed(e)
      && r.calls == PreludeCalls(s.hostproxy.value) + [DeploymentLookup, ServiceLookup, ServiceFailureStatusUpdate]
      && r.store.deployment == s.deployment && r.store.service.None?
      && r.store.hostproxy.Some?
      && FindStatusCondition(r.store.hostproxy.value.conditions, TypeAvailable)
           == Some(ServiceFailedCondition(s.hostproxy.value.name, e))
  {
    ServiceRefusedPass(s, cfg, fail);
  }

  /** An image without `:` makes the Deployment build panic once the prelude has been written. */
  lemma ImageWithoutTagCrashes(s: Store, cfg: Config, fail: Oracle)
    requires s.hostproxy.Some? && !s.hostproxy.value.deletionRequested && s.deployment.None?
    requires PreludeClear(s.hostproxy.value, fail) && DeploymentLookup !in fail
    requires cfg.image.Some? && ':' !in cfg.image.value
    ensures var r := Reconcile(s, cfg, fail);
      && r.outcome == Crashed(IndexOutOfRange)
      && r.calls == PreludeCalls(s.hostproxy.value) + [DeploymentLookup]
      && r.store == s.(hostproxy := Some(Prepared(s.hostproxy.value)))
  {
    var hp := Prepared(s.hostproxy.value);
    LivePass(s, cfg, fail);
    assert GetDeployment(s.(hostproxy := Some(hp)), DeploymentLookup, fail) == Failure(NotFound("Deployment"));
  }

  /** A Deployment lookup error other than not-found is returned as it is, before anything is created. */
  lemma DeploymentLookupErrorIsReturned(s: Store, cfg: Config, fail: Oracle)
    requires s.hostproxy.Some? && !s.hostproxy.value.deletionRequested
    requires PreludeClear(s.hostproxy.value, fail) && DeploymentLookup in fail
    ensures var r := Reconcile(s, cfg, fail);
      && r.outcome == Failed(Rejected(DeploymentLookup))
      && r.calls == PreludeCalls(s.hostproxy.value) + [DeploymentLookup]
      && r.store == s.(hostproxy := Some(Prepared(s.hostproxy.value)))
  {
    var hp := Prepared(s.hostproxy.value);
    LivePass(s, cfg, fail);
    assert GetDeployment(s.(hostproxy := Some(hp)), DeploymentLookup, fail) == Failure(Rejected(DeploymentLookup));
  }

  /** A Service lookup error other than not-found is returned as it is. */
  lemma ServiceLookupErrorIsReturned(s: Store, cfg: Config, fail: Oracle)
    requires s.hostproxy.Some? && !s.hostproxy.value.deletionRequested && s.deployment.Some?
    requires PreludeClear(s.hostproxy.value, fail) && DeploymentLookup !in fail && ServiceLookup in fail
    ensures var r := Reconcile(s, cfg, fail);
      && r.outcome == Failed(Rejected(ServiceLookup))
      && r.calls == PreludeCalls(s.hostproxy.value) + [DeploymentLookup, ServiceLookup]
      && r.store == s.(hostproxy := Some(Prepared(s.hostproxy.value)))
  {
    var hp := Prepared(s.hostproxy.value);
    var s1 := s.(hostproxy := Some(hp));
    LivePass(s, cfg, fail);
    DeploymentFound(s1, hp, cfg, fail);
    var p := ConvergeService(s1, hp, s.deployment.value, cfg, fail);
    assert GetService(s1, ServiceLookup, fail) == Failure(Rejected(ServiceLookup));
    JoinCalls11(DeploymentLookup, ServiceLookup);
  }

  /** The whole pass when the replica write is refused and every other call succeeds. */
  lemma ResizeRefusedPass(s: Store, cfg: Config, fail: Oracle)
    requires s.hostproxy.Some? && !s.hostproxy.value.deletionRequested && PreludeClear(s.hostproxy.value, fail)
    requires s.deployment.Some? && s.service.Some? && s.deployment.value.replicas != PinnedReplicas
    requires DeploymentLookup !in fail && ServiceLookup !in fail
    requires ScaleUpdate in fail && ResizeRefetch !in fail && ResizeFailureStatusUpdate !in fail
    ensures var e := Rejected(ScaleUpdate);
            var hp := Prepared(s.hostproxy.value);
            Reconcile(s, cfg, fail) ==
              Pass(s.(hostproxy := Some(WithCondition(hp, ResizeFailedCondition(hp.name, e)))), Failed(e),
                   PreludeCalls(s.hostproxy.value) + [DeploymentLookup, ServiceLookup, ScaleUpdate, ResizeRefetch, ResizeFailureStatusUpdate], [])
  {
    var hp := Prepared(s.hostproxy.value);
    LivePass(s, cfg, fail);
    ResizeRefusedConvergence(s.(hostproxy := Some(hp)), hp, cfg, fail);
  }

  /**
   * When writing the pinned replica count fails, the resource is read again,
   * Available=False/"Resizing" is written and the write error is returned.
   */
  lemma FailedResizeIsReported(s: Store, cfg: Config, fail: Oracle)
    requires s.hostproxy.Some? && !s.hostproxy.value.deletionRequested && PreludeClear(s.hostproxy.value, fail)
    requires s.deployment.Some? && s.service.Some? && s.deployment.value.replicas != PinnedReplicas
    requires DeploymentLookup !in fail && ServiceLookup !in fail
    requires ScaleUpdate in fail && ResizeRefetch !in fail && ResizeFailureStatusUpdate !in fail
    ensures var r := Reconcile(s, cfg, fail);
            var e := Rejected(ScaleUpdate);
      && r.outcome == Failed(e)
      && r.calls == PreludeCalls(s.hostproxy.value) + [DeploymentLookup, ServiceLookup, ScaleUpdate, ResizeRefetch, ResizeFailureStatusUpdate]
      && r.store.deployment == s.deployment && r.store.service == s.service
      && r.store.hostproxy.Some?
      && FindStatusCondition(r.store.hostproxy.value.conditions, TypeAvailable)
           == Some(ResizeFailedCondition(s.hostproxy.value.name, e))
  {
    ResizeRefusedPass(s, cfg, fail);
  }

  // ---------------------------------------------------------------------
  // Chains of passes

  /** The store left by one pass per oracle in `fails`, run in order: each pass may fail at its own sites. */
  function StoreAfter(s: Store, cfg: Config, fails: seq<Oracle>): Store
    decreases |fails|
  {
    if |fails| == 0 then s else StoreAfter(Reconcile(s, cfg, fails[0]).store, cfg, fails[1..])
  }

  /** A store property that every pass keeps, whatever fails in it, holds after any chain of passes. */
  lemma {:induction false} StoreAfterKeeps(inv: Store -> bool, s: Store, cfg: Config, fails: seq<Oracle>)
    requires inv(s) && forall t, fail :: inv(t) ==> inv(Reconcile(t, cfg, fail).store)
    ensures inv(StoreAfter(s, cfg, fails))
    decreases |fails|
  {
    if |fails| > 0 {
      StoreAfterKeeps(inv, Reconcile(s, cfg, fails[0]).store, cfg, fails[1..]);
    }
  }

  /** However many passes run, and whatever fails in them, the stored condition list stays well-formed. */
  lemma ConditionsStayWellFormed(s: Store, cfg: Config, fails: seq<Oracle>)
    requires StoredConditionsWellFormed(s)
    ensures StoredConditionsWellFormed(StoreAfter(s, cfg, fails))
  {
    var inv := t => StoredConditionsWellFormed(t);
    forall t, fail | inv(t) ensures inv(Reconcile(t, cfg, fail).store) {
      PassKeepsConditionsWellFormed(t, cfg, fail);
    }
    StoreAfterKeeps(inv, s, cfg, fails);
  }

  /** A live resource named `name` whose Deployment does not exist yet. */
  predicate AwaitingDeployment(s: Store, name: string) {
    s.hostproxy.Some? && !s.hostproxy.value.deletionRequested && s.hostproxy.value.name == name && s.deployment.None?
  }

  /**
   * With the image unset, no pass creates the Deployment or removes the
   * resource, whichever of its calls fail.
   */
  lemma UnsetImageStep(s: Store, cfg: Config, fail: Oracle, name: string)
    requires AwaitingDeployment(s, name) && cfg.image.None?
    ensures AwaitingDeployment(Reconcile(s, cfg, fail).store, name)
  {
    var hp0 := s.hostproxy.value;
    if GetPrimary in fail {
    } else if |hp0.conditions| == 0 && (InitStatusUpdate in fail || InitRefetch in fail) {
      InitializeInterrupted(s, hp0, fail);
    } else if HostproxyFinalizer !in hp0.finalizers && FinalizerUpdate in fail {
      AttachmentRefused(s, cfg, fail);
    } else {
      assert PreludeClear(hp0, fail);
      var hp := Prepared(hp0);
      LivePass(s, cfg, fail);
      var p := ConvergeDeployment(s.(hostproxy := Some(hp)), hp, cfg, fail);
      assert !DeploymentFor(hp, cfg, fail).Built?;
    }
  }

  /** One fault-free pass with the image unset fails, reports it, and leaves the Deployment missing. */
  lemma UnsetImagePass(s: Store, cfg: Config, name: string)
    requires AwaitingDeployment(s, name) && cfg.image.None?
    ensures var r := Reconcile(s, cfg, NoFaults);
      && AwaitingDeployment(r.store, name)
      && r.outcome == Failed(ImageNotConfigured)
      && FindStatusCondition(r.store.hostproxy.value.conditions, TypeAvailable)
           == Some(DeploymentFailedCondition(name, ImageNotConfigured))
  {
    assert PreludeClear(s.hostproxy.value, NoFaults);
    DeploymentBuildFailureIsReported(s, cfg, NoFaults);
  }

  /** With the image unset, the Deployment stays missing however many passes run and whatever fails in them. */
  lemma UnsetImageKeepsAwaiting(s: Store, cfg: Config, name: string, fails: seq<Oracle>)
    requires AwaitingDeployment(s, name) && cfg.image.None?
    ensures AwaitingDeployment(StoreAfter(s, cfg, fails), name)
  {
    var inv := t => AwaitingDeployment(t, name);
    forall t, fail | inv(t) ensures inv(Reconcile(t, cfg, fail).store) {
      UnsetImageStep(t, cfg, fail, name);
    }
    StoreAfterKeeps(inv, s, cfg, fails);
  }

  /**
   * With the image unset, after any chain of passes, whatever failed in
   * them, the next fault-free pass fails on the Deployment build and
   * reports it.
   */
  lemma UnsetImageFailsEveryPass(s: Store, cfg: Config, fails: seq<Oracle>)
    requires s.hostproxy.Some? && !s.hostproxy.value.deletionRequested && s.deployment.None?
    requires cfg.image.None?
    ensures var r := Reconcile(StoreAfter(s, cfg, fails), cfg, NoFaults);
      && r.outcome == Failed(ImageNotConfigured)
      && r.store.hostproxy.Some? && r.store.deployment.None?
      && FindStatusCondition(r.store.hostproxy.value.conditions, TypeAvailable)
           == Some(DeploymentFailedCondition(s.hostproxy.value.name, ImageNotConfigured))
  {
    var name := s.hostproxy.value.name;
    UnsetImageKeepsAwaiting(s, cfg, name, fails);
    UnsetImagePass(StoreAfter(s, cfg, fails), cfg, name);
  }
}

=== FILE: reconciler.dfy ===
/**
 * One pass of `HostproxyReconciler.Reconcile` as a pure function of the
 * store, the configuration and the failure oracle. The pass is the ordered
 * pipeline fetch, status initialisation, finalizer attachment, then either
 * the deletion branch or Deployment, Service and replica convergence and the
 * steady state; each phase either continues with the next or ends the pass.
 */
module Reconciler {
  import opened Wrappers
  import opened Text
  import opened Conditions
  import opened HostproxyApi
  import opened Finalizers
  import opened Faults
  import opened Descriptors
  import opened Cluster

  /**
   * How a pass ends: the result/error pair it returns. `RequeueAfterMinute`
   * is `Result{RequeueAfter: time.Minute}`; `Crashed` is a Go panic.
   */
  datatype Outcome =
    | Done
    | Requeue
    | RequeueAfterMinute
    | Failed(error: Error)
    | Crashed(reason: string)

  /** An event handed to the event recorder. */
  datatype Event = Event(eventType: string, reason: string, message: string)

  /**
   * The result of a pass: the store afterwards, the outcome, the store calls
   * made in order (the failing one included) and the events recorded.
   */
  datatype Pass = Pass(store: Store, outcome: Outcome, calls: seq<Site>, events: seq<Event>)

  /** Replica count every Deployment is pinned to. */
  const PinnedReplicas: Int32 := 1

  function StartingCondition(): Condition {
    Condition(TypeAvailable, ConditionUnknown, "Reconciling", "Starting reconciliation")
  }

  function FinalizingCondition(name: string): Condition {
    Condition(TypeDegraded, ConditionUnknown, "Finalizing",
      "Performing finalizer operations for the custom resource: " + name + " ")
  }

  function FinalizedCondition(name: string): Condition {
    Condition(TypeDegraded, ConditionTrue, "Finalizing",
      "Finalizer operations for custom resource " + name + " name were successfully accomplished")
  }

  function DeploymentFailedCondition(name: string, e: Error): Condition {
    Condition(TypeAvailable, ConditionFalse, "Reconciling",
      "Failed to create Deployment for the custom resource (" + name + "): (" + ErrorText(e) + ")")
  }

  function ServiceFailedCondition(name: string, e: Error): Condition {
    Condition(TypeAvailable, ConditionFalse, "Reconciling",
      "Failed to create Service for the custom resource (" + name + "): (" + ErrorText(e) + ")")
  }

  function ResizeFailedCondition(name: string, e: Error): Condition {
    Condition(TypeAvailable, ConditionFalse, "Resizing",
      "Failed to update the size for the custom resource (" + name + "): (" + ErrorText(e) + ")")
  }

  function AvailableCondition(name: string): Condition {
    Condition(TypeAvailable, ConditionTrue, "Reconciling",
      "Deployment for custom resource (" + name + ") with " + IntToString(PinnedReplicas) + " replicas created successfully")
  }

  /** The warning `doFinalizerOperationsForHostproxy` records; it changes no state. */
  function DeletingEvent(hp: Hostproxy): Event {
    Event("Warning", "Deleting",
      "Custom Resource " + hp.name + " is being deleted from the namespace " + hp.namespace)
  }

  function WithCondition(hp: Hostproxy, c: Condition): Hostproxy {
    hp.(conditions := SetStatusCondition(hp.conditions, c))
  }

  /** The pass `p`, preceded by the store calls in `prefix`. */
  function After(prefix: seq<Site>, p: Pass): (r: Pass)
    ensures r.store == p.store && r.outcome == p.outcome && r.events == p.events
    ensures r.calls == prefix + p.calls
  {
    p.(calls := prefix + p.calls)
  }

  /**
   * Where a step of the prelude leaves the pass: it goes on with the store,
   * the resource as last read or written and the calls made, or it stops
   * with a finished pass.
   */
  datatype Step =
    | Continue(store: Store, hp: Hostproxy, calls: seq<Site>)
    | Stop(pass: Pass)

  /** One reconciliation pass for the request key the store is about. */
  function Reconcile(s: Store, cfg: Config, fail: Oracle): (r: Pass)
    ensures |r.calls| >= 1 && r.calls[0] == GetPrimary
    ensures s.hostproxy.None? && GetPrimary !in fail ==> r == Pass(s, Done, [GetPrimary], [])
    ensures GetPrimary in fail ==> r == Pass(s, Failed(Rejected(GetPrimary)), [GetPrimary], [])
  {
    match GetHostproxy(s, GetPrimary, fail)
    case Failure(e) =>
      if e.NotFound? then Pass(s, Done, [GetPrimary], [])
      else Pass(s, Failed(e), [GetPrimary], [])
    case Success(hp) =>
      match InitializeStatus(s, hp, fail)
      case Stop(p) => After([GetPrimary], p)
      case Continue(s1, hp1, c1) =>
        match AttachFinalizer(s1, hp1, fail)
        case Stop(p) => After([GetPrimary] + c1, p)
        case Continue(s2, hp2, c2) => After([GetPrimary] + c1 + c2, CheckDeletion(s2, hp2, cfg, fail))
  }

  /**
   * An empty condition list gets Available=Unknown, is written, and the
   * resource is read again before anything else is written.
   */
  function InitializeStatus(s: Store, hp: Hostproxy, fail: Oracle): (r: Step)
    ensures |hp.conditions| > 0 ==> r == Continue(s, hp, [])
    ensures r.Stop? ==> r.pass.outcome.Failed? && r.pass.events == [] && r.pass.store.deployment == s.deployment && r.pass.store.service == s.service
    ensures r.Continue? ==> r.store.deployment == s.deployment && r.store.service == s.service
  {
    if |hp.conditions| == 0 then
      var hp1 := WithCondition(hp, StartingCondition());
      match UpdateStatus(s, hp1, InitStatusUpdate, fail)
      case Failure(e) => Stop(Pass(s, Failed(e), [InitStatusUpdate], []))
      case Success(s1) =>
        match GetHostproxy(s1, InitRefetch, fail)
        case Failure(e) => Stop(Pass(s1, Failed(e), [InitStatusUpdate, InitRefetch], []))
        case Success(hp2) => Continue(s1, hp2, [InitStatusUpdate, InitRefetch])
    else
      Continue(s, hp, [])
  }

  /**
   * The finalizer is added and written when absent. The refusal branch of
   * `AddFinalizer` is kept as the source has it, though it cannot be taken
   * behind the `ContainsFinalizer` check.
   */
  function AttachFinalizer(s: Store, hp: Hostproxy, fail: Oracle): (r: Step)
    ensures ContainsFinalizer(hp.finalizers, HostproxyFinalizer) ==> r == Continue(s, hp, [])
    ensures r.Stop? ==> r.pass.events == [] && r.pass.store == s
    ensures r.Continue? ==> r.store.deployment == s.deployment && r.store.service == s.service
  {
    if !ContainsFinalizer(hp.finalizers, HostproxyFinalizer) then
      var (fs, added) := AddFinalizer(hp.finalizers, HostproxyFinalizer);
      if !added then Stop(Pass(s, Requeue, [], []))
      else
        var hp1 := hp.(finalizers := fs);
        match UpdateHostproxy(s, hp1, FinalizerUpdate, fail)
        case Failure(e) => Stop(Pass(s, Failed(e), [FinalizerUpdate], []))
        case Success(s1) => Continue(s1, hp1, [FinalizerUpdate])
    else
      Continue(s, hp, [])
  }

  /**
   * A resource marked for deletion takes the deletion branch and nothing
   * else: exactly the live resources go on to look up their Deployment.
   */
  function CheckDeletion(s: Store, hp: Hostproxy, cfg: Config, fail: Oracle): (r: Pass)
    ensures (|r.calls| >= 1 && r.calls[0] == DeploymentLookup) <==> !hp.deletionRequested
    ensures hp.deletionRequested ==>
              r.store.deployment == s.deployment && r.store.service == s.service && r.outcome != RequeueAfterMinute
  {
    if hp.deletionRequested then Finalize(s, hp, fail)
    else ConvergeDeployment(s, hp, cfg, fail)
  }

  /**
   * The deletion branch: with the finalizer present, Degraded goes Unknown,
   * the finalizer operations run, the resource is read again, Degraded goes
   * True and the finalizer is removed. The pass always ends here and never
   * touches the Deployment or the Service.
   */
  function Finalize(s: Store, hp: Hostproxy, fail: Oracle): (r: Pass)
    ensures !ContainsFinalizer(hp.finalizers, HostproxyFinalizer) ==> r == Pass(s, Done, [], [])
    ensures r.store.deployment == s.deployment && r.store.service == s.service
    ensures r.outcome.Done? || r.outcome.Failed? || r.outcome.Requeue?
    ensures r.calls <= [FinalizingStatusUpdate, FinalizingRefetch, FinalizedStatusUpdate, FinalizerRemoveUpdate]
  {
    if !ContainsFinalizer(hp.finalizers, HostproxyFinalizer) then Pass(s, Done, [], [])
    else
      var hp1 := WithCondition(hp, FinalizingCondition(hp.name));
      match UpdateStatus(s, hp1, FinalizingStatusUpdate, fail)
      case Failure(e) => Pass(s, Failed(e), [FinalizingStatusUpdate], [])
      case Success(s1) =>
        var events := [DeletingEvent(hp1)];
        match GetHostproxy(s1, FinalizingRefetch, fail)
        case Failure(e) => Pass(s1, Failed(e), [FinalizingStatusUpdate, FinalizingRefetch], events)
        case Success(hp2) =>
          var hp3 := WithCondition(hp2, FinalizedCondition(hp2.name));
          var calls3 := [FinalizingStatusUpdate, FinalizingRefetch, FinalizedStatusUpdate];
          match UpdateStatus(s1, hp3, FinalizedStatusUpdate, fail)
          case Failure(e) => Pass(s1, Failed(e), calls3, events)
          case Success(s2) =>
            var (fs, removed) := RemoveFinalizer(hp3.finalizers, HostproxyFinalizer);
            if !removed then Pass(s2, Requeue, calls3, events)
            else
              var calls4 := calls3 + [FinalizerRemoveUpdate];
              match UpdateHostproxy(s2, hp3.(finalizers := fs), FinalizerRemoveUpdate, fail)
              case Failure(e) => Pass(s2, Failed(e), calls4, events)
              case Success(s3) => Pass(s3, Done, calls4, events)
  }

  /**
   * Deployment convergence: a missing Deployment is built and created and
   * the pass ends with a one-minute requeue; a failed build is written to
   * the status as Available=False and returned; any other lookup error is
   * returned.
   */
  function ConvergeDeployment(s: Store, hp: Hostproxy, cfg: Config, fail: Oracle): (r: Pass)
    ensures OnlyConditionsDiffer(s.hostproxy, r.store.hostproxy)
    ensures |r.calls| >= 1 && r.calls[0] == DeploymentLookup
    ensures s.deployment.None? ==>
              r.store.service == s.service && r.events == [] &&
              Among(r.calls, {DeploymentLookup, DeploymentCreate, DeploymentFailureStatusUpdate})
    ensures r.outcome == Requeue ==> r.calls[|r.calls| - 1] == ScaleUpdate
    ensures s.deployment.None? && r.store.deployment.Some? ==>
              r.outcome == RequeueAfterMinute && r.store.hostproxy == s.hostproxy && DeploymentFor(hp, cfg, fail).Built? &&
              r.store.deployment == Some(DeploymentFor(hp, cfg, fail).value)
  {
    match GetDeployment(s, DeploymentLookup, fail)
    case Failure(e) =>
      if e.NotFound? then
        (match DeploymentFor(hp, cfg, fail)
         case BuildPanicked(reason) => Pass(s, Crashed(reason), [DeploymentLookup], [])
         case BuildFailed(buildErr) =>
           var hp1 := WithCondition(hp, DeploymentFailedCondition(hp.name, buildErr));
           var calls := [DeploymentLookup, DeploymentFailureStatusUpdate];
           (match UpdateStatus(s, hp1, DeploymentFailureStatusUpdate, fail)
            case Failure(e2) => Pass(s, Failed(e2), calls, [])
            case Success(s1) => Pass(s1, Failed(buildErr), calls, []))
         case Built(dep) =>
           var calls := [DeploymentLookup, DeploymentCreate];
           match CreateDeployment(s, dep, DeploymentCreate, fail)
           case Failure(e2) => Pass(s, Failed(e2), calls, [])
           case Success(s1) => Pass(s1, RequeueAfterMinute, calls, []))
      else
        Pass(s, Failed(e), [DeploymentLookup], [])
    case Success(found) => After([DeploymentLookup], ConvergeService(s, hp, found, cfg, fail))
  }

  /** Service convergence, in the same pattern as the Deployment's. */
  function ConvergeService(s: Store, hp: Hostproxy, found: Deployment, cfg: Config, fail: Oracle): (r: Pass)
    ensures OnlyConditionsDiffer(s.hostproxy, r.store.hostproxy)
    ensures |r.calls| >= 1 && r.calls[0] == ServiceLookup
    ensures s.service.None? ==> r.store.deployment == s.deployment && r.events == [] && ScaleUpdate !in r.calls
    ensures r.outcome == Requeue ==> r.calls[|r.calls| - 1] == ScaleUpdate
    ensures s.service.None? && r.store.service.Some? ==>
              r.outcome == RequeueAfterMinute && r.store.hostproxy == s.hostproxy && ServiceFor(hp, cfg, fail).Built? &&
              r.store.service == Some(ServiceFor(hp, cfg, fail).value)
  {
    match GetService(s, ServiceLookup, fail)
    case Failure(e) =>
      if e.NotFound? then
        (match ServiceFor(hp, cfg, fail)
         case BuildPanicked(reason) => Pass(s, Crashed(reason), [ServiceLookup], [])
         case BuildFailed(buildErr) =>
           var hp1 := WithCondition(hp, ServiceFailedCondition(hp.name, buildErr));
           var calls := [ServiceLookup, ServiceFailureStatusUpdate];
           (match UpdateStatus(s, hp1, ServiceFailureStatusUpdate, fail)
            case Failure(e2) => Pass(s, Failed(e2), calls, [])
            case Success(s1) => Pass(s1, Failed(buildErr), calls, []))
         case Built(svc) =>
           var calls := [ServiceLookup, ServiceCreate];
           match CreateService(s, svc, ServiceCreate, fail)
           case Failure(e2) => Pass(s, Failed(e2), calls, [])
           case Success(s1) => Pass(s1, RequeueAfterMinute, calls, []))
      else
        Pass(s, Failed(e), [ServiceLookup], [])
    case Success(_) => After([ServiceLookup], ConvergeScale(s, hp, found, fail))
  }

  /**
   * Replica convergence: a Deployment whose replica count is not 1 is
   * written back with 1 and the pass requeues at once; when that write
   * fails the resource is read again and Available=False/"Resizing" is set.
   */
  function ConvergeScale(s: Store, hp: Hostproxy, found: Deployment, fail: Oracle): (r: Pass)
    ensures OnlyConditionsDiffer(s.hostproxy, r.store.hostproxy)
    ensures found.replicas == PinnedReplicas ==> r.calls == [AvailableStatusUpdate]
    ensures r.outcome == Requeue ==> r.calls == [ScaleUpdate]
    ensures found.replicas != PinnedReplicas ==> |r.calls| >= 1 && r.calls[0] == ScaleUpdate
    ensures found.replicas != PinnedReplicas && ScaleUpdate !in fail && s.deployment.Some? ==>
              r == Pass(s.(deployment := Some(found.(replicas := PinnedReplicas))), Requeue, [ScaleUpdate], [])
    ensures found.replicas != PinnedReplicas && ScaleUpdate in fail ==>
              r.outcome.Failed? && |r.calls| >= 2 && r.calls[..2] == [ScaleUpdate, ResizeRefetch] && r.store.deployment == s.deployment
  {
    if found.replicas != PinnedReplicas then
      match UpdateDeployment(s, found.(replicas := PinnedReplicas), ScaleUpdate, fail)
      case Success(s1) => Pass(s1, Requeue, [ScaleUpdate], [])
      case Failure(scaleErr) =>
        match GetHostproxy(s, ResizeRefetch, fail)
        case Failure(e) => Pass(s, Failed(e), [ScaleUpdate, ResizeRefetch], [])
        case Success(hp1) =>
          var hp2 := WithCondition(hp1, ResizeFailedCondition(hp1.name, scaleErr));
          var calls := [ScaleUpdate, ResizeRefetch, ResizeFailureStatusUpdate];
          match UpdateStatus(s, hp2, ResizeFailureStatusUpdate, fail)
          case Failure(e) => Pass(s, Failed(e), calls, [])
          case Success(s1) => Pass(s1, Failed(scaleErr), calls, [])
    else
      SteadyState(s, hp, fail)
  }

  /** Nothing left to correct: Available=True is written and the pass is done. */
  function SteadyState(s: Store, hp: Hostproxy, fail: Oracle): (r: Pass)
    ensures OnlyConditionsDiffer(s.hostproxy, r.store.hostproxy)
    ensures r.calls == [AvailableStatusUpdate] && r.events == []
    ensures r.store.deployment == s.deployment && r.store.service == s.service
    ensures r.outcome == Done <==> AvailableStatusUpdate !in fail && s.hostproxy.Some?
    ensures r.outcome == Done ==>
              r.store.hostproxy.Some? &&
              FindStatusCondition(r.store.hostproxy.value.conditions, TypeAvailable) == Some(AvailableCondition(hp.name))
  {
    var hp1 := WithCondition(hp, AvailableCondition(hp.name));
    match UpdateStatus(s, hp1, AvailableStatusUpdate, fail)
    case Failure(e) => Pass(s, Failed(e), [AvailableStatusUpdate], [])
    case Success(s1) => Pass(s1, Done, [AvailableStatusUpdate], [])
  }
}

=== FILE: text.dfy ===
/**
 * The string operations the reconciler relies on: Go's `strings.Split` with a
 * one-character separator, its inverse `Join`, and the `%d` rendering of an
 * integer used by `fmt.Sprintf`, with a parser as its inverse.
 */
module Text {
  import opened Wrappers

  predicate IsDigit(c: char) {
    '0' <= c <= '9'
  }

  predicate AllDigits(s: string) {
    forall i :: 0 <= i < |s| ==> IsDigit(s[i])
  }

  function DigitChar(d: nat): (c: char)
    requires d < 10
    ensures IsDigit(c)
  {
    ('0' as int + d) as char
  }

  function DigitValue(c: char): (d: nat)
    requires IsDigit(c)
    ensures d < 10
  {
    c as int - '0' as int
  }

  /** Decimal rendering of a natural number, without leading zeros. */
  function NatToString(n: nat): (s: string)
    ensures |s| >= 1
    ensures AllDigits(s)
    ensures n < 10 <==> |s| == 1
    decreases n
  {
    if n < 10 then [DigitChar(n)] else NatToString(n / 10) + [DigitChar(n % 10)]
  }

  function Pow10(k: nat): (r: nat)
    ensures r >= 1
  {
    if k == 0 then 1 else 10 * Pow10(k - 1)
  }

  /** A natural number renders in at most `k` digits exactly when it is below 10^k. */
  lemma {:induction false} NatToStringWidth(n: nat, k: nat)
    requires k >= 1
    ensures |NatToString(n)| <= k <==> n < Pow10(k)
    decreases k
  {
    if k > 1 {
      NatToStringWidth(n / 10, k - 1);
      if n >= 10 {
        assert |NatToString(n)| == |NatToString(n / 10)| + 1;
      }
      assert n / 10 < Pow10(k - 1) <==> n < Pow10(k);
    }
  }

  /** Value of a string of decimal digits (the empty string reads as 0). */
  function ParseNat(s: string): (n: nat)
    requires AllDigits(s)
    decreases |s|
  {
    if |s| == 0 then 0 else ParseNat(s[..|s| - 1]) * 10 + DigitValue(s[|s| - 1])
  }

  /** `fmt.Sprintf("%d", i)`: an optional minus sign followed by the decimal digits. */
  function IntToString(i: int): (s: string)
    ensures |s| >= 1
    ensures ':' !in s
    ensures i >= 0 <==> AllDigits(s)
  {
    if i < 0 then
      var s := "-" + NatToString(-i);
      assert !IsDigit(s[0]);
      s
    else NatToString(i)
  }

  /** Reads back what `IntToString` writes; anything else is rejected. */
  function ParseInt(s: string): Option<int> {
    if |s| >= 2 && s[0] == '-' && AllDigits(s[1..]) then
      var n: int := ParseNat(s[1..]);
      Some(-n)
    else if |s| >= 1 && AllDigits(s) then Some(ParseNat(s))
    else None
  }

  lemma {:induction false} ParseNatToString(n: nat)
    ensures ParseNat(NatToString(n)) == n
    decreases n
  {
    if n >= 10 {
      var s := NatToString(n);
      assert s[..|s| - 1] == NatToString(n / 10);
      ParseNatToString(n / 10);
    }
  }

  /** Every integer's decimal rendering reads back as that integer. */
  lemma IntStringRoundTrip(i: int)
    ensures ParseInt(IntToString(i)) == Some(i)
  {
    if i < 0 {
      var t := NatToString(-i);
      var s := "-" + t;
      assert IntToString(i) == s;
      assert s[1..] == t;
      ParseNatToString(-i);
      assert |s| >= 2 && s[0] == '-' && AllDigits(s[1..]);
      assert ParseNat(s[1..]) == -i;
    } else {
      var s := NatToString(i);
      assert IsDigit(s[0]);
      ParseNatToString(i);
      assert ParseInt(s) == Some(ParseNat(s));
    }
  }

  /**
   * `strings.Split(s, string(sep))`: the pieces of `s` between separators,
   * in order; a string without the separator is a single piece.
   */
  function Split(s: string, sep: char): (parts: seq<string>)
    ensures |parts| >= 1
    ensures forall i :: 0 <= i < |parts| ==> sep !in parts[i]
    ensures |parts| >= 2 <==> sep in s
    decreases |s|
  {
    if |s| == 0 then [""]
    else
      var rest := Split(s[1..], sep);
      if s[0] == sep then [""] + rest
      else [[s[0]] + rest[0]] + rest[1..]
  }

  /** `strings.Join(parts, string(sep))`. */
  function Join(parts: seq<string>, sep: char): string
    decreases |parts|
  {
    if |parts| == 0 then ""
    else if |parts| == 1 then parts[0]
    else parts[0] + [sep] + Join(parts[1..], sep)
  }

  /** Joining the pieces with the separator gives back the original string. */
  lemma {:induction false} JoinSplit(s: string, sep: char)
    ensures Join(Split(s, sep), sep) == s
    decreases |s|
  {
    if |s| > 0 {
      var rest := Split(s[1..], sep);
      JoinSplit(s[1..], sep);
      if s[0] != sep && |rest| >= 2 {
        assert Split(s, sep)[1..] == rest[1..];
        assert Join(rest, sep) == rest[0] + [sep] + Join(rest[1..], sep);
      }
    }
  }

  lemma {:induction false} SplitSeparatorFree(a: string, sep: char)
    requires sep !in a
    ensures Split(a, sep) == [a]
    decreases |a|
  {
    if |a| > 0 {
      SplitSeparatorFree(a[1..], sep);
      assert [a[0]] + a[1..] == a;
    }
  }

  lemma {:induction false} SplitAtFirstSeparator(a: string, sep: char, b: string)
    requires sep !in a
    ensures Split(a + [sep] + b, sep) == [a] + Split(b, sep)
    decreases |a|
  {
    var s := a + [sep] + b;
    if |a| == 0 {
      assert s[1..] == b;
    } else {
      assert s[1..] == a[1..] + [sep] + b;
      SplitAtFirstSeparator(a[1..], sep, b);
      assert [a[0]] + a[1..] == a;
    }
  }

  /** Splitting a join of separator-free pieces gives back exactly those pieces. */
  lemma {:induction false} SplitJoin(parts: seq<string>, sep: char)
    requires |parts| >= 1
    requires forall i :: 0 <= i < |parts| ==> sep !in parts[i]
    ensures Split(Join(parts, sep), sep) == parts
    decreases |parts|
  {
    if |parts| == 1 {
      SplitSeparatorFree(parts[0], sep);
    } else {
      SplitJoin(parts[1..], sep);
      SplitAtFirstSeparator(parts[0], sep, Join(parts[1..], sep));
      assert [parts[0]] + parts[1..] == parts;
    }
  }
}

=== FILE: wrappers.dfy ===
/** Failure-compatible wrappers used throughout the model. */
module Wrappers {

  /** An optional value: a pointer that may be nil, an environment variable that may be unset. */
  datatype Option<+T> = None | Some(value: T)

  /** The value-or-error pair a Go call returns. */
  datatype Result<+T, +E> = Success(value: T) | Failure(error: E)
}
